=== FILE: README.md ===
# FoodDelivery client core in Dafny

This project models the core of the FoodDelivery Android client. The client is the customer-facing app of a food-delivery system. It finds stores near a point, or stores that match a filter. It lists a store's products, lets the user pick quantities and submit a purchase, and lets the user rate a store. Every request goes to the backend (the "Master") over a plain socket that carries Java-serialised objects. One `SocketClient` connection is opened per operation.

What is modelled:

- **Wire framing (`SocketClient`)**, in `protocol.dfy`:
  - each operation writes a command tag (`client`, `filter`, `fetchProducts`, `purchase`, `rate`), then its payloads, in a fixed order;
  - a reference reader for the Master recovers the operation from those frames.
- **One connection's life**, in `session.dfy`:
  - `connect()` opens the socket, then the output stream, then the input stream;
  - the operation's writes are followed by exactly one read;
  - `disconnect()` closes input, output and socket in that order and swallows the first close failure;
  - the screens call `connect()` outside their `try`, and `disconnect()` in the `finally`.
  - The run is an event trace over a `Peer` value that fixes what the network does: which connect step fails, which write fails, what comes back, and which close throws.
- **`ProductSelectionAdapter`**, in `selection.dfy`:
  - one quantity per catalogue row;
  - the `afterTextChanged` rules: empty text is 0, unparsable text is reset to "0", and a value above stock is clamped to the stock;
  - `getSelectedProducts`;
  - `bind` on a row view that RecyclerView reuses, whose old quantity watcher is still attached when the field is set.
- **Java text primitives** the screens rely on, in `javatext.dfy` and `categories.dfy`:
  - `String.trim`, `Integer.parseInt` and `String.valueOf(int)`;
  - the category split `split("\\s*,\\s*")`.
- **`UiUtils.truncateText`**, in `uiutils.dfy`.
- **The input gates and screen state** of the nearby search, filter, purchase and rating screens, in `nearby.dfy`, `filter.dfy`, `purchase.dfy`, `rating.dfy` and `screenstate.dfy`.
  - A user action yields the next screen state and the operation it hands to a worker, if any.
  - A completion callback takes the outcome of that operation.
- **Concrete walks** through the screens, in `scenarios.dfy`.

Constants follow the code:

- the nearby request has no categories, 0 stars, price tier `""` and a radius of 5.0 km;
- the star slider moves in tenths;
- a rating needs at least 1 star.

`Double.parseDouble` is not modelled. It is a parameter `parse: string -> Option<real>`, where `None` means `NumberFormatException`.

Where the documented intent and the code disagree, the model follows the code:

- A failed filter request re-enables the button and hides the spinner. It leaves the list and the no-results text as they were, so neither is visible. The nearby screen shows no-results on error.
- The rating screen accepts any rounded rating of 1 or more. There is no upper bound in the client.
- The quantity field accepts negative numbers, for example `-3`. They are stored, and `getSelectedProducts` drops them. They are not rejected.
- The client never checks the radius of a request. It always sends 5.0.
- The minimum stars are never negative only if the slider's progress is not negative.
- Teardown runs on every exit path only after `connect()` returned. A failing `connect()` is never followed by `disconnect()`; see Findings.

## Model

| member | source | states |
|---|---|---|
| JavaText.Trim | src/main/java/com/fooddelivery/activities/PurchaseActivity.java:139-140 | the trimmed text is empty or begins and ends with a char above U+0020 |
| JavaText.TrimOffset | src/main/java/com/fooddelivery/activities/PurchaseActivity.java:139-140 | the number of chars cut from the front is at most the length, and every one of them is at most U+0020 |
| JavaText.TrimIsSlice | src/main/java/com/fooddelivery/activities/PurchaseActivity.java:139-142 | the trimmed text is a contiguous slice of the input; every char cut from the front or the back is at most U+0020; and the result is empty only when every char of the input is at most U+0020 |
| JavaText.TrimIdempotent | src/main/java/com/fooddelivery/activities/RateStoreActivity.java:69-71 | trimming a trimmed text changes nothing |
| JavaText.ParseInt | src/main/java/com/fooddelivery/adapters/ProductSelectionAdapter.java:134 | an accepted text starts with a digit or a sign, ends with a digit (so a lone "-" or "+" is rejected) and denotes a value in the 32-bit int range |
| JavaText.ParseIntRejectsNonDigit | src/main/java/com/fooddelivery/adapters/ProductSelectionAdapter.java:134-147 | a text with a char that is not a digit, other than a leading sign, is rejected and takes the NumberFormatException path |
| JavaText.ParseIntValue | src/main/java/com/fooddelivery/adapters/ProductSelectionAdapter.java:134 | an optional '-' or '+' followed by decimal digits, leading zeros allowed, parses to its signed value when that fits a 32-bit int, and is rejected when it does not |
| JavaText.LeadingDigitBound | src/main/java/com/fooddelivery/adapters/ProductSelectionAdapter.java:134 | a digit string without a leading zero is worth at least ten to the power of its length less one, and with eleven or more digits it is beyond the int range |
| JavaText.ShowInt | src/main/java/com/fooddelivery/adapters/ProductSelectionAdapter.java:139 | String.valueOf prints at least one char: only digits for a non-negative int, a '-' followed by digits for a negative one |
| JavaText.ShowNatValue | src/main/java/com/fooddelivery/adapters/ProductSelectionAdapter.java:139 | the decimal digits String.valueOf prints for a natural number read back as that number |
| JavaText.ParseShowInt | src/main/java/com/fooddelivery/adapters/ProductSelectionAdapter.java:137-139 | parsing the text String.valueOf prints for any int gives back that int |
| CategoryList.SplitFields | src/main/java/com/fooddelivery/activities/FilterStoresActivity.java:120 | the regex split yields at least one field; its exact fields, for every text, are stated by SplitFieldsIsReference |
| CategoryList.SplitFieldsShape | src/main/java/com/fooddelivery/activities/FilterStoresActivity.java:120 | no field holds a comma, whitespace next to each comma is absorbed into the separator, and the outer ends of the text are kept |
| CategoryList.CutAtCommasJoin | src/main/java/com/fooddelivery/activities/FilterStoresActivity.java:120 | cutting a text at every comma gives comma-free pieces that, joined with commas, give the text back |
| CategoryList.CutAtCommasOfJoin | src/main/java/com/fooddelivery/activities/FilterStoresActivity.java:120 | cutting comma-free pieces joined with commas gives back exactly those pieces, so the cut is one-to-one |
| CategoryList.SplitFieldsIsReference | src/main/java/com/fooddelivery/activities/FilterStoresActivity.java:120 | for every text, the split is the text cut at every comma, with the whitespace after each comma and before each comma stripped from the adjacent pieces, and the outer ends of the text kept |
| CategoryList.ReferenceOfTrimmed | src/main/java/com/fooddelivery/activities/FilterStoresActivity.java:117-120 | on text with no whitespace at either end the split strips the whitespace from both sides of every piece |
| CategoryList.DropTrailingEmpty | src/main/java/com/fooddelivery/activities/FilterStoresActivity.java:120 | the result is a prefix of the fields that ends in a non-empty field, and only empty fields were dropped |
| CategoryList.Categories | src/main/java/com/fooddelivery/activities/FilterStoresActivity.java:117-121 | blank text gives no categories; otherwise no category holds a comma or has whitespace at either end, and the last one is non-empty |
| CategoryList.CategoriesCutsAndStrips | src/main/java/com/fooddelivery/activities/FilterStoresActivity.java:117-121 | for every text: blank text gives no categories; otherwise the categories are the trimmed text cut at every comma, each piece stripped of whitespace on both sides, with the empty pieces at the end dropped, in order |
| CategoryList.SplitJoin | src/main/java/com/fooddelivery/activities/FilterStoresActivity.java:120 | splitting category names joined with ", " gives back exactly those names, in order |
| CategoryList.CategoriesOfJoin | src/main/java/com/fooddelivery/activities/FilterStoresActivity.java:117-121 | the whole category pipeline (trim, blank check, split) inverts joining well-formed names with ", " |
| Domain.NearbyRequest | src/main/java/com/fooddelivery/network/SocketClient.java:70-77 | the nearby request carries the point, no categories, 0 stars, an empty price tier and a radius of 5 km |
| Protocol.Frames | src/main/java/com/fooddelivery/network/SocketClient.java:80-207 | every operation writes two or three frames: its command tag first, and no other tag after it |
| Protocol.DecodeFrames | src/main/java/com/fooddelivery/network/SocketClient.java:80-207 | a reader that dispatches on the tag recovers every operation from the frames the client writes |
| Protocol.FramesInjective | src/main/java/com/fooddelivery/network/SocketClient.java:80-207 | two different operations never write the same frames |
| Protocol.CastSucceeds | src/main/java/com/fooddelivery/network/SocketClient.java:90-91 | a null reply passes every cast; any other object passes exactly the cast to its own class, with store lists and product lists as distinct classes, and an object of a foreign class fails every one |
| Protocol.NearbyFrames | src/main/java/com/fooddelivery/network/SocketClient.java:70-86 | a nearby search writes exactly the "client" tag and then the default 5 km request for its point |
| Session.Connect | src/main/java/com/fooddelivery/network/SocketClient.java:37-42 | a successful connect leaves socket, output and input set; a failing step leaves its own field and every later one unset, and every earlier one set (the socket when the output stream fails; socket and output when the input stream fails) |
| Session.CloseOrderPlan | src/main/java/com/fooddelivery/network/SocketClient.java:47-51 | the close plan lists exactly the set channels, input before output before socket |
| Session.FailureSplitsChannels | src/main/java/com/fooddelivery/network/SocketClient.java:48-55 | a throwing close splits the set channels: those before it get closed, it and those after it stay open |
| Session.Disconnect | src/main/java/com/fooddelivery/network/SocketClient.java:47-56 | without a throwing close every set channel is closed, in order, and nothing stays open; when a set channel's close throws, the closes before it happen, the failure is swallowed and the remaining closes are skipped |
| Session.Exchange | src/main/java/com/fooddelivery/network/SocketClient.java:80-104 | the operation body raises a write error exactly when a frame fails to go out; a read error exactly when all went out and nothing came back; a cast error exactly when the reply has the wrong class; otherwise it returns the reply as read |
| Session.RunTask | src/main/java/com/fooddelivery/activities/NearbyStoresActivity.java:104-110 | a failing connect raises a connect error and leaves open what it had set; the task succeeds exactly when connect works, every frame is written and a reply of the right class comes back, and then returns that reply; without a throwing close the finally block leaves nothing open |
| Session.ConnectFailureSendsNothing | src/main/java/com/fooddelivery/activities/NearbyStoresActivity.java:104-110 | when connect fails the task raises before writing, reading or closing anything |
| Session.ExchangeObservations | src/main/java/com/fooddelivery/network/SocketClient.java:80-104 | the operation body writes a prefix of its frames, reads once exactly when every write succeeded, reads after the writes, and returns the reply object unchanged |
| Session.ConnectedRun | src/main/java/com/fooddelivery/network/SocketClient.java:65-213 | after a successful connect: the frames written are a prefix of the operation's frames; there is one read exactly when all were written, and it follows them; there is no retry; the reply, null included, is returned unchanged whenever its class fits |
| Session.TeardownNeverMasksOutcome | src/main/java/com/fooddelivery/network/SocketClient.java:47-56 | whether or not a close throws, the task returns or raises the same thing |
| Session.ConnectedRunClosesAll | src/main/java/com/fooddelivery/activities/NearbyStoresActivity.java:104-110 | after a successful connect with no throwing close, the finally block leaves nothing open, whatever the writes and the read did |
| Session.ConnectFailureLeaksSocket | src/main/java/com/fooddelivery/activities/NearbyStoresActivity.java:104-110 | as written, a connect that fails while creating a stream leaves the socket open |
| Session.GuardedRunClosesAll | src/main/java/com/fooddelivery/activities/NearbyStoresActivity.java:104-110 | with connect moved inside the guarded block nothing is left open unless a close throws, and the outcome is the same as before |
| ProductSelection.NewAdapter | src/main/java/com/fooddelivery/adapters/ProductSelectionAdapter.java:32-40 | construction gives one quantity per product, all 0 |
| ProductSelection.NewAdapterWithinStock | src/main/java/com/fooddelivery/adapters/ProductSelectionAdapter.java:32-40 | a fresh adapter over non-negative stock asks for no more than the stock of any row |
| ProductSelection.AfterTextChanged | src/main/java/com/fooddelivery/adapters/ProductSelectionAdapter.java:131-148 | only the edited row changes: empty text stores 0; text Integer.parseInt rejects stores 0 and writes "0" back; a parsed value up to the stock is stored as typed; a parsed value above the stock stores exactly the stock and writes it back |
| ProductSelection.OutOfRangeQuantityResets | src/main/java/com/fooddelivery/adapters/ProductSelectionAdapter.java:134-147 | digits whose value is beyond the int range are not capped at the stock: the row is reset to 0 and "0" is written back |
| ProductSelection.RewriteIsFixedPoint | src/main/java/com/fooddelivery/adapters/ProductSelectionAdapter.java:137-147 | the text the watcher writes back, fed to the watcher again, changes nothing and writes nothing, so the re-entry stops |
| ProductSelection.EditKeepsWithinStock | src/main/java/com/fooddelivery/adapters/ProductSelectionAdapter.java:137-143 | over non-negative stock an edit keeps every row within its stock |
| ProductSelection.WithQuantity | src/main/java/com/fooddelivery/adapters/ProductSelectionAdapter.java:72-79 | a selected item copies name, category and price, and carries the chosen quantity in place of the stock |
| ProductSelection.PositiveRows | src/main/java/com/fooddelivery/adapters/ProductSelectionAdapter.java:68-70 | the selected rows are in increasing order and are exactly the rows with a positive quantity |
| ProductSelection.Selection | src/main/java/com/fooddelivery/adapters/ProductSelectionAdapter.java:65-84 | the selection has at most one item per catalogue row, and every item carries a positive quantity |
| ProductSelection.SelectionProjects | src/main/java/com/fooddelivery/adapters/ProductSelectionAdapter.java:65-84 | the selection has one entry per positive row, in catalogue order, each the row's product with the row's quantity |
| ProductSelection.SelectedProducts | src/main/java/com/fooddelivery/adapters/ProductSelectionAdapter.java:65-84 | the selection is empty exactly when no row has a positive quantity |
| ProductSelection.NothingSelectedInitially | src/main/java/com/fooddelivery/adapters/ProductSelectionAdapter.java:32-40 | a fresh adapter selects nothing |
| ProductSelection.SelectedWithinStock | src/main/java/com/fooddelivery/adapters/ProductSelectionAdapter.java:65-84 | when no row exceeds its stock, every selected quantity lies between 1 and its row's stock |
| ProductSelection.GetSelectedChecked | src/main/java/com/fooddelivery/adapters/ProductSelectionAdapter.java:65-84 | the loop throws IndexOutOfBounds at the first row that has no quantity; otherwise it returns the selection over the catalogue |
| ProductSelection.BindChecked | src/main/java/com/fooddelivery/adapters/ProductSelectionAdapter.java:50-54 | binding a row succeeds exactly when the row has a quantity, and then it yields that row's product and quantity |
| ProductSelection.SetFieldText | src/main/java/com/fooddelivery/adapters/ProductSelectionAdapter.java:118 | setting a holder's quantity text changes nothing without a watcher, and otherwise edits exactly as afterTextChanged does for the row the watcher was made for |
| ProductSelection.BindAsWritten | src/main/java/com/fooddelivery/adapters/ProductSelectionAdapter.java:111-150 | as written, the holder ends up watching the new row, and the field text of the new row's quantity has first gone through the watcher of the holder's previous row, if any |
| ProductSelection.RebindAsWrittenOverwritesRow | src/main/java/com/fooddelivery/adapters/ProductSelectionAdapter.java:118-121 | as written, rebinding a holder from row p to another row q stores q's quantity, capped at p's stock, in row p, and changes no other row |
| ProductSelection.Bind | src/main/java/com/fooddelivery/adapters/ProductSelectionAdapter.java:111-150 | with the watcher removed before the field is set, binding changes no quantity and no selection, and afterwards typing into the holder edits exactly the row it shows |
| ProductSelection.RefillAsWritten | src/main/java/com/fooddelivery/activities/PurchaseActivity.java:110-113 | as written, refilling the shared product list leaves the quantity list as it was |
| ProductSelection.RefillAsWrittenBreaksAdapter | src/main/java/com/fooddelivery/activities/PurchaseActivity.java:69-113 | for an adapter built over the still-empty list, any non-empty catalogue breaks the one-quantity-per-row invariant, and binding row 0 throws |
| ProductSelection.Refill | src/main/java/com/fooddelivery/activities/PurchaseActivity.java:110-113 | the corrected refill gives one quantity of 0 per new catalogue row |
| ProductSelection.RefillKeepsAdapterUsable | src/main/java/com/fooddelivery/activities/PurchaseActivity.java:110-113 | after the corrected refill every row binds with quantity 0, and nothing is selected |
| ProductSelection.SelectedOfWellFormed | src/main/java/com/fooddelivery/adapters/ProductSelectionAdapter.java:65-84 | on an adapter with one quantity per row the loop never throws and returns the selection |
| UiUtils.Truncate | src/main/java/com/fooddelivery/utils/UiUtils.java:144-149 | text that fits is returned unchanged; longer text keeps its first maxLength-3 chars, followed by "...", for exactly maxLength chars; the result is never longer than the input |
| UiUtils.TruncateIdempotent | src/main/java/com/fooddelivery/utils/UiUtils.java:145-148 | for maxLength of at least 3, truncating twice equals truncating once |
| ScreenState.ShowProgress | src/main/java/com/fooddelivery/activities/NearbyStoresActivity.java:95-98 | starting a search shows the spinner, disables the button and hides both the list and no-results, leaving the list contents as they were |
| ScreenState.ParseLocation | src/main/java/com/fooddelivery/activities/NearbyStoresActivity.java:83-90 | empty latitude or longitude text is refused first; otherwise the point is accepted exactly when both texts parse, and then it is those two numbers |
| NearbyScreen.Initial | src/main/java/com/fooddelivery/activities/NearbyStoresActivity.java:73-75 | the screen starts with the spinner, the list and no-results all hidden |
| NearbyScreen.Search | src/main/java/com/fooddelivery/activities/NearbyStoresActivity.java:81-98 | refused coordinates change nothing and start nothing; accepted ones put the screen in flight and start a nearby search for that point |
| NearbyScreen.OnComplete | src/main/java/com/fooddelivery/activities/NearbyStoresActivity.java:114-164 | every completion leaves the spinner hidden, the button enabled and exactly one of list and no-results shown. A non-empty reply becomes the list; a null or empty reply clears it; an error keeps the old contents |
| FilterScreen.BuildRequest | src/main/java/com/fooddelivery/activities/FilterStoresActivity.java:104-142 | only the coordinates can refuse the form. The request carries the parsed point, the split categories, a tenth of the slider progress and the checked price label (or "") with a 5 km radius |
| FilterScreen.RequestBounds | src/main/java/com/fooddelivery/activities/FilterStoresActivity.java:124-141 | every built request has a positive radius, and a non-negative slider gives non-negative minimum stars |
| FilterScreen.Filter | src/main/java/com/fooddelivery/activities/FilterStoresActivity.java:104-148 | a refused form changes nothing and starts nothing; otherwise the screen goes in flight and the built request is sent unchanged |
| FilterScreen.OnComplete | src/main/java/com/fooddelivery/activities/FilterStoresActivity.java:164-186 | every completion hides the spinner and enables the button; a non-empty reply becomes the shown list; a null or empty reply empties it and shows no-results; an error changes neither view nor the contents |
| FilterScreen.FilterThenComplete | src/main/java/com/fooddelivery/activities/FilterStoresActivity.java:145-186 | after a sent filter, a reply shows exactly one of list and no-results, and an error shows neither |
| PurchaseScreen.Open | src/main/java/com/fooddelivery/activities/PurchaseActivity.java:49-90 | without a store the screen finishes and sends nothing; with one it starts the catalogue fetch for that store name over an empty adapter, with the spinner shown and the list and button off |
| PurchaseScreen.OnFetchComplete | src/main/java/com/fooddelivery/activities/PurchaseActivity.java:105-129 | a non-empty catalogue becomes the adapter's rows (all 0) and shows the list; a null or empty one, or an error, ends the screen; the adapter stays usable throughout |
| PurchaseScreen.EditQuantity | src/main/java/com/fooddelivery/adapters/ProductSelectionAdapter.java:131-148 | the nested watcher call fired by the text written back runs before the outer call stores its value, so after an edit the adapter is exactly what the outer call stores: only the edited row changes, to 0 for empty or unparsable text, to the typed value up to the stock, and to the stock above it |
| PurchaseScreen.EditQuantityKeepsWithinStock | src/main/java/com/fooddelivery/adapters/ProductSelectionAdapter.java:137-147 | edits on the purchase screen keep every row within its stock |
| PurchaseScreen.PurchaseProducts | src/main/java/com/fooddelivery/activities/PurchaseActivity.java:137-159 | blank name or email (after trimming) is refused first, then an empty selection. An accepted order holds the trimmed non-empty contact fields and exactly the selection; nothing is sent |
| PurchaseScreen.OrderWithinStock | src/main/java/com/fooddelivery/activities/PurchaseActivity.java:148-155 | every product in an accepted order is its catalogue row's product, with a quantity between 1 and that row's stock |
| PurchaseScreen.Confirm | src/main/java/com/fooddelivery/activities/PurchaseActivity.java:198-208 | confirming sends the order and then the store name after the "purchase" tag, with the spinner shown and the button disabled |
| PurchaseScreen.OnSubmitComplete | src/main/java/com/fooddelivery/activities/PurchaseActivity.java:215-235 | a reply is shown verbatim in the result dialog; an error re-enables the button; the selection is untouched |
| PurchaseScreen.DismissResult | src/main/java/com/fooddelivery/activities/PurchaseActivity.java:223 | the result dialog's OK button ends the screen |
| RatingScreen.Open | src/main/java/com/fooddelivery/activities/RateStoreActivity.java:45-53 | the store name comes from the intent when it is given, otherwise it starts empty |
| RatingScreen.SubmitRating | src/main/java/com/fooddelivery/activities/RateStoreActivity.java:67-91 | without a name from the intent the trimmed field text is taken and kept; an empty name is refused, then a rating below 1; otherwise the confirmation asks about that name and rating, with no upper bound |
| RatingScreen.StoreNameIsKept | src/main/java/com/fooddelivery/activities/RateStoreActivity.java:69-75 | once a name is taken from the field, later submits use it whatever the field holds |
| RatingScreen.SendRating | src/main/java/com/fooddelivery/activities/RateStoreActivity.java:98-108 | sending writes exactly the "rate" tag, the confirmed name and the integer rating |
| RatingScreen.OnRateComplete | src/main/java/com/fooddelivery/activities/RateStoreActivity.java:115-135 | a reply is shown verbatim; an error re-enables submit; the store name is kept |
| RatingScreen.DismissResult | src/main/java/com/fooddelivery/activities/RateStoreActivity.java:123 | the result dialog's OK button ends the screen |
| Scenarios.NearbySearchShowsTwoStores | src/main/java/com/fooddelivery/activities/NearbyStoresActivity.java:81-145 | a search at (37.98, 23.73) writes "client" and the default request for that point, and a two-store reply shows both stores with no-results hidden |
| Scenarios.NearbySearchEmptyReply | src/main/java/com/fooddelivery/activities/NearbyStoresActivity.java:146-149 | an empty reply shows no-results and hides an empty list |
| Scenarios.FilterSendsTheForm | src/main/java/com/fooddelivery/activities/FilterStoresActivity.java:113-142 | categories "Pizza, Sushi", 3.5 stars and tier "€€" are sent exactly so, with a 5 km radius |
| Scenarios.PizzaSushi | src/main/java/com/fooddelivery/activities/FilterStoresActivity.java:117-121 | "Pizza, Sushi" splits into the two names |
| Scenarios.FilterRejectsBadLatitude | src/main/java/com/fooddelivery/activities/FilterStoresActivity.java:111-114 | a latitude of "abc" changes nothing and starts nothing |
| Scenarios.TypeQuantity | src/main/java/com/fooddelivery/adapters/ProductSelectionAdapter.java:134-143 | typing a quantity within stock stores exactly that quantity in its row |
| Scenarios.TypeMinusSign | src/main/java/com/fooddelivery/adapters/ProductSelectionAdapter.java:134-147 | a lone "-", the first key of a negative quantity, resets the row to 0 and writes "0" back |
| Scenarios.TypeHugeQuantity | src/main/java/com/fooddelivery/adapters/ProductSelectionAdapter.java:134-147 | typing "99999999999" against a stock of 10 stores 0, not 10 |
| Scenarios.ScrollAddsBurger | src/main/java/com/fooddelivery/adapters/ProductSelectionAdapter.java:111-150 | with no burger and one portion of fries chosen, reusing the burger row's holder for the fries puts a burger in the order as written, and leaves the order as it was with the corrected bind |
| Scenarios.PurchaseBurgersAndFries | src/main/java/com/fooddelivery/activities/PurchaseActivity.java:137-208 | two burgers and one portion of fries, with the name typed with spaces around it, become an order with the trimmed name and exactly those two items; confirming writes "purchase", the order and the store name |
| Scenarios.RatingZeroRefusedFiveSent | src/main/java/com/fooddelivery/activities/RateStoreActivity.java:78-108 | 0 stars are refused; 5 stars are confirmed and written as "rate", the name, 5 |

## Left out

- Threads and `NetworkTask` (`network/NetworkTask.java`) are not modelled. A completion is a function call with the operation's outcome. That exactly one callback runs, and that it runs on the main thread, is taken as given.
- Real sockets, Java serialisation bytes and stream headers are not modelled. A frame is one `writeObject` of a value. A `Peer` value fixes what the network does.
- Floating point is not modelled. Coordinates, prices and stars are `real`; `sbMinStars.getProgress() / 10.0f` is exact division; `Math.round(ratingBar.getRating())` is done by the caller, which passes an int. `Double.parseDouble` is a parameter.
- FilterScreen.BuildRequest: minimum stars are an exact tenth of the progress, not the nearest `float`.
- UiUtils.Truncate: lengths and cut positions count Unicode scalar values (Dafny chars), not Java's UTF-16 code units. Text with chars outside the Basic Multilingual Plane is measured shorter than Java measures it, and the Java cut can split a surrogate pair; neither is modelled.
- JavaText.ParseInt: only ASCII digits are modelled; Java also accepts other Unicode decimal digits.
- CategoryList.SplitFields: `\s` is the ASCII class of a standard JVM (space, tab, newline, vertical tab, form feed, carriage return). On Android, `java.util.regex` is backed by ICU, whose `\s` is `[\t\n\f\r\p{Z}]`: it also absorbs Unicode separators such as U+00A0 next to a comma, and not the vertical tab. Text with such chars next to a comma splits differently there.
- Scrolling itself is not modelled on the screens: which holder RecyclerView reuses for which row is a parameter of `BindAsWritten` and `Bind`. The text shown in a field is not modelled either.
- Protocol.CastSucceeds: the model treats a store list and a product list as two classes, so a reply list of the other element type is a cast failure (`ReplyTypeError`). In Java the casts to `ArrayList<Store>` and `ArrayList<Product>` are unchecked (SocketClient.java:123 and :150): for filter and fetchProducts such a list passes, is returned and reaches the screen's success path. For the nearby search it raises only in the logging loop (SocketClient.java:98-101), and only when the list is non-empty or holds a null element. Null elements inside a reply list are not modelled at all.
- The order total and summary text of the purchase confirmation dialog are left out, because they are floating-point formatting.
- Toasts, dialog titles, log calls and layout inflation are left out. Other `UiUtils` helpers (price, rating and dimension formatting) and the `Store` price-tier computation are outside this model.
- A null intent extra and an empty store name are the same value (`[]`) in the rating screen. The code treats both alike.
- The store-name label visibility of the rating screen is not modelled.
- The slider's maximum comes from a layout file and is not modelled. Hence FilterScreen.RequestBounds gives only non-negative minimum stars, not an upper bound of 5.
- PurchaseScreen.OnFetchComplete uses the corrected refill (see Findings). The as-written refill is modelled separately.
- `MainActivity`, `StoreDetailsActivity`, `StoreAdapter`, `ProductAdapter`, `ResponseListener` and `Constants` (host and port) are presentation or configuration. `Constants.java` is not part of this model.
- The Master's own processing is not modelled. `Protocol.Decode` is only a reference reader for the frames.

## Findings

| source | as written | input that shows it | evidently intended | confidence | as-written member | corrected member |
|---|---|---|---|---|---|---|
| src/main/java/com/fooddelivery/activities/PurchaseActivity.java:69-113 | the adapter is built over the empty `productList`, whose size fixes the quantity list; the catalogue is later added to that same list, so the quantity list stays empty | any non-empty catalogue reply; then `onBindViewHolder(0)` calls `quantities.get(0)` on an empty list, which throws `IndexOutOfBoundsException` | one quantity of 0 per catalogue row after the catalogue arrives | not executed | ProductSelection.RefillAsWrittenBreaksAdapter | ProductSelection.RefillKeepsAdapterUsable |
| src/main/java/com/fooddelivery/activities/NearbyStoresActivity.java:104-110 | `socketClient.connect()` runs before the `try`, so its `finally` with `disconnect()` does not cover it; the same holds in every screen's task | the socket connects, then `new ObjectOutputStream` or `new ObjectInputStream` throws; the socket is never closed | whatever `connect()` opened is closed again | not executed | Session.ConnectFailureLeaksSocket | Session.GuardedRunClosesAll |
| src/main/java/com/fooddelivery/adapters/ProductSelectionAdapter.java:111-150 | `bind` sets the quantity text at :118 before it removes the old watcher at :121; a reused holder's old watcher, made for the previous row p, stores the new row's quantity in row p | a holder that showed row 0 (stock 1, quantity 0) is reused for row 1 (quantity 1): row 0 becomes 1, so scrolling alone adds an item to the order | remove the old watcher before setting the text, so binding changes no quantity | not executed | ProductSelection.RebindAsWrittenOverwritesRow | ProductSelection.Bind |

=== FILE: categories.dfy ===
/**
 * The food-category field of the filter screen: the trimmed text is split with
 * the Java regex `\s*,\s*` (String.split with limit 0), so whitespace around
 * each comma is absorbed and trailing empty fields are dropped.
 */
module CategoryList {
  import opened JavaText

  /**
   * The regex class `\s` as java.util.regex defines it on a standard JVM:
   * space, tab, newline, vertical tab, form feed, carriage return.
   */
  predicate IsRegexSpace(c: char) {
    c == ' ' || c == '\t' || c == '\n' || c as int == 11 || c as int == 12 || c == '\r'
  }

  function StripSpacesStart(s: string): (r: string)
    ensures |r| <= |s|
    ensures r == [] || !IsRegexSpace(r[0])
    ensures forall k :: 0 <= k < |s| - |r| ==> IsRegexSpace(s[k])
    decreases |s|
  {
    if |s| > 0 && IsRegexSpace(s[0]) then StripSpacesStart(s[1..]) else s
  }

  function StripSpacesEnd(s: string): (r: string)
    ensures |r| <= |s|
    ensures r == [] || !IsRegexSpace(r[|r| - 1])
    ensures forall k :: |r| <= k < |s| ==> IsRegexSpace(s[k])
    decreases |s|
  {
    if |s| > 0 && IsRegexSpace(s[|s| - 1]) then StripSpacesEnd(s[..|s| - 1]) else s
  }

  /** Stripping the front keeps a tail of the text. */
  lemma {:induction false} StripStartIsSuffix(s: string)
    ensures StripSpacesStart(s) == s[|s| - |StripSpacesStart(s)|..]
    decreases |s|
  {
    if |s| > 0 && IsRegexSpace(s[0]) {
      StripStartIsSuffix(s[1..]);
    }
  }

  /** Stripping the back keeps a head of the text. */
  lemma {:induction false} StripEndIsPrefix(s: string)
    ensures StripSpacesEnd(s) == s[..|StripSpacesEnd(s)|]
    decreases |s|
  {
    if |s| > 0 && IsRegexSpace(s[|s| - 1]) {
      StripEndIsPrefix(s[..|s| - 1]);
    }
  }

  /** No char of the text is a comma. */
  predicate NoComma(f: string) {
    forall i :: 0 <= i < |f| ==> f[i] != ','
  }

  /** Position of the first comma, or the length of the text when it has none. */
  function FirstComma(s: string): (k: nat)
    ensures k <= |s|
    ensures k < |s| ==> s[k] == ','
    ensures NoComma(s[..k])
  {
    if s == [] || s[0] == ',' then 0
    else
      var k := 1 + FirstComma(s[1..]);
      assert forall i :: 1 <= i < k ==> s[..k][i] == s[1..][..k - 1][i - 1];
      k
  }

  /** A comma with none before it is the first one. */
  lemma FirstCommaIs(s: string, j: nat)
    requires j < |s| && s[j] == ',' && NoComma(s[..j])
    ensures FirstComma(s) == j
  {
    var k := FirstComma(s);
    assert forall i :: 0 <= i < j ==> s[..j][i] == s[i];
    assert forall i :: 0 <= i < k ==> s[..k][i] == s[i];
  }

  /** No regex space at the front. */
  predicate SpaceFreeStart(f: string) {
    f == [] || !IsRegexSpace(f[0])
  }

  /** No regex space at the back. */
  predicate SpaceFreeEnd(f: string) {
    f == [] || !IsRegexSpace(f[|f| - 1])
  }

  /**
   * Pattern.split with `\s*,\s*` before trailing empty fields are removed. The
   * leftmost match at or after the current position always ends at the first
   * comma: it starts where the run of spaces before that comma starts and
   * swallows the run of spaces after it. With no comma the text is one field.
   */
  function SplitFields(s: string): (fields: seq<string>)
    ensures |fields| > 0
    decreases |s|
  {
    var k := FirstComma(s);
    if k == |s| then [s]
    else
      [StripSpacesEnd(s[..k])] + SplitFields(StripSpacesStart(s[k + 1..]))
  }

  /**
   * No field holds a comma; every field but the first starts, and every field
   * but the last ends, with a char other than a regex space; the outer ends
   * are as free of spaces as the text's own ends.
   */
  predicate SplitShape(s: string, fields: seq<string>) {
    && |fields| > 0
    && (forall i :: 0 <= i < |fields| ==> NoComma(fields[i]))
    && (forall i :: 0 < i < |fields| ==> SpaceFreeStart(fields[i]))
    && (forall i :: 0 <= i < |fields| - 1 ==> SpaceFreeEnd(fields[i]))
    && (SpaceFreeStart(s) ==> SpaceFreeStart(fields[0]))
    && (SpaceFreeEnd(s) ==> SpaceFreeEnd(fields[|fields| - 1]))
  }

  lemma {:induction false} SplitFieldsShape(s: string)
    ensures SplitShape(s, SplitFields(s))
    decreases |s|
  {
    var k := FirstComma(s);
    if k < |s| {
      var head := StripSpacesEnd(s[..k]);
      var tail := StripSpacesStart(s[k + 1..]);
      var rest := SplitFields(tail);
      SplitStep(s, k, head, tail);
      SplitFieldsShape(tail);
      ConsShape(s, head, tail, rest);
    }
  }

  lemma ConsShape(s: string, head: string, tail: string, rest: seq<string>)
    requires SplitShape(tail, rest)
    requires NoComma(head) && SpaceFreeEnd(head) && SpaceFreeStart(tail)
    requires SpaceFreeStart(s) ==> SpaceFreeStart(head)
    requires SpaceFreeEnd(s) ==> SpaceFreeEnd(tail)
    ensures SplitShape(s, [head] + rest)
  {
    var fields := [head] + rest;
    forall i | 0 < i < |fields|
      ensures NoComma(fields[i]) && SpaceFreeStart(fields[i])
    {
      assert fields[i] == rest[i - 1];
    }
    forall i | 0 <= i < |fields| - 1
      ensures SpaceFreeEnd(fields[i])
    {
      if i > 0 {
        assert fields[i] == rest[i - 1];
      }
    }
    assert fields[|fields| - 1] == rest[|rest| - 1] || |rest| == 0;
  }

  /** The field cut off before the first comma, and the text left after it. */
  lemma SplitStep(s: string, k: nat, head: string, tail: string)
    requires k < |s| && s[k] == ',' && NoComma(s[..k])
    requires head == StripSpacesEnd(s[..k]) && tail == StripSpacesStart(s[k + 1..])
    ensures NoComma(head) && SpaceFreeEnd(head) && SpaceFreeStart(tail)
    ensures SpaceFreeStart(s) ==> SpaceFreeStart(head)
    ensures SpaceFreeEnd(s) ==> SpaceFreeEnd(tail)
  {
    StripEndIsPrefix(s[..k]);
    PrefixKeepsNoComma(s[..k], head);
    HeadStartsLikeText(s, k, head);
    TailEndsLikeText(s, k, tail);
  }

  lemma PrefixKeepsNoComma(pre: string, head: string)
    requires NoComma(pre) && |head| <= |pre| && head == pre[..|head|]
    ensures NoComma(head)
  {
    forall j | 0 <= j < |head|
      ensures head[j] != ','
    {
      assert head[j] == pre[j];
    }
  }

  lemma HeadStartsLikeText(s: string, k: nat, head: string)
    requires k < |s| && head == StripSpacesEnd(s[..k])
    ensures head != [] ==> head[0] == s[0]
  {
    StripEndIsPrefix(s[..k]);
    if head != [] {
      var pre := s[..k];
      assert head == pre[..|head|];
      assert head[0] == pre[0];
    }
  }

  lemma TailEndsLikeText(s: string, k: nat, tail: string)
    requires k < |s| && tail == StripSpacesStart(s[k + 1..])
    ensures tail != [] ==> tail[|tail| - 1] == s[|s| - 1]
  {
    StripStartIsSuffix(s[k + 1..]);
    if tail != [] {
      var post := s[k + 1..];
      assert tail == post[|post| - |tail|..];
      assert tail[|tail| - 1] == post[|post| - 1];
    }
  }

  function Last<T>(xs: seq<T>): T
    requires |xs| > 0
  {
    xs[|xs| - 1]
  }

  /** String.split with limit 0 removes every empty field at the end. */
  function DropTrailingEmpty(fields: seq<string>): (r: seq<string>)
    ensures |r| <= |fields| && r == fields[..|r|]
    ensures r == [] || Last(r) != []
    ensures forall i :: |r| <= i < |fields| ==> fields[i] == []
    decreases |fields|
  {
    if |fields| > 0 && Last(fields) == [] then DropTrailingEmpty(fields[..|fields| - 1]) else fields
  }

  /**
   * The category list built from the text field: blank text gives no
   * categories, anything else is trimmed and split on commas.
   */
  function Categories(text: string): (cats: seq<string>)
    ensures Trim(text) == [] ==> cats == []
    ensures cats == [] || Last(cats) != []
    ensures forall i :: 0 <= i < |cats| ==> NoComma(cats[i])
    ensures forall i :: 0 <= i < |cats| ==> SpaceFreeStart(cats[i]) && SpaceFreeEnd(cats[i])
  {
    var t := Trim(text);
    if t == [] then []
    else
      var fields := SplitFields(t);
      SplitFieldsShape(t);
      RegexSpaceIsTrimmableContra(t[0]);
      RegexSpaceIsTrimmableContra(t[|t| - 1]);
      var cats := DropTrailingEmpty(fields);
      DroppedShape(t, fields, cats);
      cats
  }

  /** Dropping empty fields at the end keeps the shape of the remaining ones. */
  lemma DroppedShape(t: string, fields: seq<string>, cats: seq<string>)
    requires SplitShape(t, fields) && SpaceFreeStart(t) && SpaceFreeEnd(t)
    requires |cats| <= |fields| && cats == fields[..|cats|]
    ensures forall i :: 0 <= i < |cats| ==> NoComma(cats[i])
    ensures forall i :: 0 <= i < |cats| ==> SpaceFreeStart(cats[i]) && SpaceFreeEnd(cats[i])
  {
    forall i | 0 <= i < |cats|
      ensures NoComma(cats[i]) && SpaceFreeStart(cats[i]) && SpaceFreeEnd(cats[i])
    {
      assert cats[i] == fields[i];
    }
  }

  /** Fields joined with a separator, the inverse view of splitting. */
  function Join(fields: seq<string>, sep: string): string
    requires |fields| > 0
    decreases |fields|
  {
    if |fields| == 1 then fields[0] else fields[0] + sep + Join(fields[1..], sep)
  }

  /** A category name as a user would type it: non-empty, no comma, no blank at either end. */
  predicate WellFormedCategory(c: string) {
    && c != []
    && NoComma(c)
    && !IsTrimmable(c[0])
    && !IsTrimmable(c[|c| - 1])
  }

  lemma JoinEnds(fields: seq<string>, sep: string)
    requires |fields| > 0
    requires forall i :: 0 <= i < |fields| ==> WellFormedCategory(fields[i])
    ensures Join(fields, sep) != []
    ensures fields[0] != [] && Join(fields, sep)[0] == fields[0][0]
    ensures var f := fields[|fields| - 1]; f != [] && Join(fields, sep)[|Join(fields, sep)| - 1] == f[|f| - 1]
    decreases |fields|
  {
    assert WellFormedCategory(fields[0]);
    assert WellFormedCategory(fields[|fields| - 1]);
    if |fields| > 1 {
      JoinEnds(fields[1..], sep);
    }
  }

  /** A well-formed name, then ", ", then text that starts with a visible char: one split step. */
  lemma SplitCons(f: string, rest: string)
    requires WellFormedCategory(f)
    requires rest != [] && !IsRegexSpace(rest[0])
    ensures SplitFields(f + ", " + rest) == [f] + SplitFields(rest)
  {
    var s := f + ", " + rest;
    assert s[..|f|] == f;
    FirstCommaIs(s, |f|);
    RegexSpaceIsTrimmableContra(f[|f| - 1]);
    assert StripSpacesEnd(f) == f;
    assert s[|f| + 1..] == [' '] + rest;
    assert ([' '] + rest)[1..] == rest;
    assert StripSpacesStart([' '] + rest) == rest;
  }

  /** Splitting well-formed names joined by ", " gives back exactly those names. */
  lemma {:induction false} SplitJoin(fields: seq<string>)
    requires |fields| > 0
    requires forall i :: 0 <= i < |fields| ==> WellFormedCategory(fields[i])
    ensures SplitFields(Join(fields, ", ")) == fields
    decreases |fields|
  {
    if |fields| == 1 {
      assert WellFormedCategory(fields[0]);
    } else {
      var tail := fields[1..];
      AllWellFormedTail(fields);
      SplitJoin(tail);
      SplitJoinCons(fields[0], tail);
      assert fields == [fields[0]] + tail;
    }
  }

  lemma AllWellFormedTail(fields: seq<string>)
    requires |fields| > 1
    requires forall i :: 0 <= i < |fields| ==> WellFormedCategory(fields[i])
    ensures WellFormedCategory(fields[0])
    ensures forall i :: 0 <= i < |fields[1..]| ==> WellFormedCategory(fields[1..][i])
  {
    assert WellFormedCategory(fields[0]);
    forall i | 0 <= i < |fields[1..]|
      ensures WellFormedCategory(fields[1..][i])
    {
      assert fields[1..][i] == fields[i + 1];
    }
  }

  lemma JoinCons(f: string, tail: seq<string>, sep: string)
    requires |tail| > 0
    ensures Join([f] + tail, sep) == f + sep + Join(tail, sep)
  {
    assert ([f] + tail)[1..] == tail;
  }

  /** One more name in front of a list that already splits back to itself. */
  lemma SplitJoinCons(f: string, tail: seq<string>)
    requires WellFormedCategory(f) && |tail| > 0
    requires forall i :: 0 <= i < |tail| ==> WellFormedCategory(tail[i])
    requires SplitFields(Join(tail, ", ")) == tail
    ensures SplitFields(Join([f] + tail, ", ")) == [f] + tail
  {
    var rest := Join(tail, ", ");
    JoinCons(f, tail, ", ");
    JoinEnds(tail, ", ");
    RegexSpaceIsTrimmableContra(rest[0]);
    SplitCons(f, rest);
  }

  lemma RegexSpaceIsTrimmableContra(c: char)
    requires !IsTrimmable(c)
    ensures !IsRegexSpace(c)
  {
  }

  // ---------------------------------------------------------------------------
  // A reference reading of the split, for any text: cut at every comma, then
  // let each comma's separator swallow the regex spaces on both sides of it.
  // ---------------------------------------------------------------------------

  /** The text cut at every comma, char by char: the pieces between commas, commas dropped. */
  function CutAtCommas(s: string): (ps: seq<string>)
    ensures |ps| > 0
    decreases |s|
  {
    if s == [] then [[]]
    else
      var rest := CutAtCommas(s[1..]);
      if s[0] == ',' then [[]] + rest else [[s[0]] + rest[0]] + rest[1..]
  }

  /** The pieces hold no comma, and joining them with commas gives the text back. */
  lemma {:induction false} CutAtCommasJoin(s: string)
    ensures forall i :: 0 <= i < |CutAtCommas(s)| ==> NoComma(CutAtCommas(s)[i])
    ensures Join(CutAtCommas(s), ",") == s
    decreases |s|
  {
    if s != [] {
      var rest := CutAtCommas(s[1..]);
      CutAtCommasJoin(s[1..]);
      var ps := CutAtCommas(s);
      if s[0] == ',' {
        JoinCons([], rest, ",");
        forall i | 0 <= i < |ps|
          ensures NoComma(ps[i])
        {
          if i > 0 {
            assert ps[i] == rest[i - 1];
          }
        }
      } else {
        var head := [s[0]] + rest[0];
        assert NoComma(rest[0]);
        assert NoComma(head) by {
          forall j | 0 <= j < |head|
            ensures head[j] != ','
          {
            if j > 0 {
              assert head[j] == rest[0][j - 1];
            }
          }
        }
        forall i | 0 <= i < |ps|
          ensures NoComma(ps[i])
        {
          if i > 0 {
            assert ps[i] == rest[i];
          }
        }
        JoinHeadCons(s[0], rest, ",");
        assert s == [s[0]] + s[1..];
      }
    }
  }

  /** Putting a char in front of the first piece puts it in front of the joined text. */
  lemma JoinHeadCons(c: char, ps: seq<string>, sep: string)
    requires |ps| > 0
    ensures Join([[c] + ps[0]] + ps[1..], sep) == [c] + Join(ps, sep)
  {
    var qs := [[c] + ps[0]] + ps[1..];
    if |ps| > 1 {
      assert qs[1..] == ps[1..];
    }
  }

  lemma NoCommaDrop(f: string)
    requires f != [] && NoComma(f)
    ensures NoComma(f[1..])
  {
    forall j | 0 <= j < |f| - 1
      ensures f[1..][j] != ','
    {
      assert f[1..][j] == f[j + 1];
    }
  }

  /** A text without commas is a single piece. */
  lemma {:induction false} CutNoComma(s: string)
    requires NoComma(s)
    ensures CutAtCommas(s) == [s]
    decreases |s|
  {
    if s != [] {
      assert s[0] != ',';
      NoCommaDrop(s);
      CutNoComma(s[1..]);
      assert [s[0]] + s[1..] == s;
    }
  }

  /** The first comma ends the first piece; the rest of the text is cut on its own. */
  lemma {:induction false} CutAtFirstComma(s: string, k: nat)
    requires k < |s| && s[k] == ',' && NoComma(s[..k])
    ensures CutAtCommas(s) == [s[..k]] + CutAtCommas(s[k + 1..])
    decreases k
  {
    if k > 0 {
      assert s[..k][0] == s[0];
      var t := s[1..];
      NoCommaDrop(s[..k]);
      assert t[..k - 1] == s[..k][1..];
      CutAtFirstComma(t, k - 1);
      assert t[k..] == s[k + 1..];
      assert [s[0]] + t[..k - 1] == s[..k];
    }
  }

  /** Cutting well-formed pieces joined with commas gives back exactly those pieces. */
  lemma {:induction false} CutAtCommasOfJoin(ps: seq<string>)
    requires |ps| > 0
    requires forall i :: 0 <= i < |ps| ==> NoComma(ps[i])
    ensures CutAtCommas(Join(ps, ",")) == ps
    decreases |ps|
  {
    assert NoComma(ps[0]);
    if |ps| == 1 {
      CutNoComma(ps[0]);
    } else {
      var tail := ps[1..];
      assert forall i :: 0 <= i < |tail| ==> NoComma(tail[i]) by {
        forall i | 0 <= i < |tail|
          ensures NoComma(tail[i])
        {
          assert tail[i] == ps[i + 1];
        }
      }
      CutAtCommasOfJoin(tail);
      var s := Join(ps, ",");
      var k := |ps[0]|;
      assert s == ps[0] + "," + Join(tail, ",");
      assert s[..k] == ps[0];
      assert s[k + 1..] == Join(tail, ",");
      CutAtFirstComma(s, k);
      assert ps == [ps[0]] + tail;
    }
  }

  /**
   * Piece `i` as the regex split leaves it: the spaces after the comma before
   * it and before the comma after it belong to the separators; the outer ends
   * of the text are kept.
   */
  function Tidy(ps: seq<string>, i: nat): string
    requires i < |ps|
  {
    var p := if i > 0 then StripSpacesStart(ps[i]) else ps[i];
    if i + 1 < |ps| then StripSpacesEnd(p) else p
  }

  function TidyAll(ps: seq<string>): (r: seq<string>)
    ensures |r| == |ps|
  {
    seq(|ps|, i requires 0 <= i < |ps| => Tidy(ps, i))
  }

  /** The reference split: every piece between commas, tidied. */
  function ReferenceSplit(s: string): seq<string> {
    TidyAll(CutAtCommas(s))
  }

  /** Tidying a first piece and the rest is tidying the rest with its front spaces already given to the separator. */
  lemma TidyAllCons(first: string, qs: seq<string>)
    requires |qs| > 0
    ensures TidyAll([first] + qs) == [StripSpacesEnd(first)] + TidyAll([StripSpacesStart(qs[0])] + qs[1..])
  {
    var l := TidyAll([first] + qs);
    var r := [StripSpacesEnd(first)] + TidyAll([StripSpacesStart(qs[0])] + qs[1..]);
    forall i | 0 <= i < |l|
      ensures l[i] == r[i]
    {
      if i > 0 {
        TidyShift(first, qs, i - 1);
      }
    }
  }

  /** Stripping the spaces in front of a text strips them in front of its first piece only. */
  lemma {:induction false} CutOfStripStart(s: string)
    ensures var ps := CutAtCommas(s);
      CutAtCommas(StripSpacesStart(s)) == [StripSpacesStart(ps[0])] + ps[1..]
    decreases |s|
  {
    var ps := CutAtCommas(s);
    if s != [] && IsRegexSpace(s[0]) {
      var rest := CutAtCommas(s[1..]);
      CutOfStripStart(s[1..]);
      assert ps[0] == [s[0]] + rest[0];
      assert ps[0][1..] == rest[0];
      assert ps[1..] == rest[1..];
    } else if s != [] && s[0] != ',' {
      assert ps[0][0] == s[0];
    }
  }

  /** Tidying piece `j` of the text after the first separator is tidying piece `j + 1` of the whole text. */
  lemma TidyShift(first: string, qs: seq<string>, j: nat)
    requires j < |qs|
    ensures var qs' := [StripSpacesStart(qs[0])] + qs[1..];
      Tidy(qs', j) == Tidy([first] + qs, j + 1)
  {
    var qs' := [StripSpacesStart(qs[0])] + qs[1..];
    var ps := [first] + qs;
    assert ps[j + 1] == qs[j];
    if j == 0 {
      StripStartIdempotent(qs[0]);
    } else {
      assert qs'[j] == qs[j];
    }
  }

  lemma StripStartIdempotent(s: string)
    ensures StripSpacesStart(StripSpacesStart(s)) == StripSpacesStart(s)
  {
    var t := StripSpacesStart(s);
    assert t == [] || !IsRegexSpace(t[0]);
  }

  /** The recursive split agrees with the reference split on every text. */
  lemma {:induction false} SplitFieldsIsReference(s: string)
    ensures SplitFields(s) == ReferenceSplit(s)
    decreases |s|
  {
    var k := FirstComma(s);
    if k == |s| {
      assert s[..k] == s;
      CutNoComma(s);
    } else {
      var post := s[k + 1..];
      var t := StripSpacesStart(post);
      var qs := CutAtCommas(post);
      CutAtFirstComma(s, k);
      CutOfStripStart(post);
      SplitFieldsIsReference(t);
      TidyAllCons(s[..k], qs);
    }
  }

  /** Every piece between commas with the regex spaces stripped from both of its sides. */
  function StripEach(ps: seq<string>): (r: seq<string>)
    ensures |r| == |ps|
  {
    seq(|ps|, i requires 0 <= i < |ps| => StripSpacesEnd(StripSpacesStart(ps[i])))
  }

  /** The last piece is the tail of the text after the last comma. */
  lemma {:induction false} JoinEndsWithLast(ps: seq<string>, sep: string)
    requires |ps| > 0
    ensures var j := Join(ps, sep); |Last(ps)| <= |j| && j[|j| - |Last(ps)|..] == Last(ps)
    decreases |ps|
  {
    if |ps| > 1 {
      JoinEndsWithLast(ps[1..], sep);
      assert Last(ps[1..]) == Last(ps);
    }
  }

  /**
   * On text with no regex space at either end, which trimmed text has, the
   * split strips the regex spaces from both sides of every piece.
   */
  lemma ReferenceOfTrimmed(t: string)
    requires t != [] && SpaceFreeStart(t) && SpaceFreeEnd(t)
    ensures ReferenceSplit(t) == StripEach(CutAtCommas(t))
  {
    FirstPieceClean(t);
    LastPieceClean(t);
    TidyAllOfClean(CutAtCommas(t));
  }

  /** The first piece starts where the text starts. */
  lemma FirstPieceClean(t: string)
    requires SpaceFreeStart(t)
    ensures StripSpacesStart(CutAtCommas(t)[0]) == CutAtCommas(t)[0]
  {
    var ps := CutAtCommas(t);
    assert ps[0] == [] || ps[0][0] == t[0];
  }

  /** The last piece ends where the text ends. */
  lemma LastPieceClean(t: string)
    requires SpaceFreeEnd(t)
    ensures var l := StripSpacesStart(Last(CutAtCommas(t))); StripSpacesEnd(l) == l
  {
    var p := Last(CutAtCommas(t));
    LastPieceEndsText(t);
    StripStartKeepsEnd(p);
  }

  lemma LastPieceEndsText(t: string)
    ensures var p := Last(CutAtCommas(t)); p == [] || (t != [] && p[|p| - 1] == t[|t| - 1])
  {
    var ps := CutAtCommas(t);
    CutAtCommasJoin(t);
    JoinEndsWithLast(ps, ",");
  }

  lemma StripStartKeepsEnd(p: string)
    ensures var l := StripSpacesStart(p); l == [] || l[|l| - 1] == p[|p| - 1]
  {
    StripStartIsSuffix(p);
  }

  /** With clean outer ends, tidying every piece is stripping both sides of every piece. */
  lemma TidyAllOfClean(ps: seq<string>)
    requires |ps| > 0
    requires StripSpacesStart(ps[0]) == ps[0]
    requires var l := StripSpacesStart(Last(ps)); StripSpacesEnd(l) == l
    ensures TidyAll(ps) == StripEach(ps)
  {
    forall i | 0 <= i < |ps|
      ensures TidyAll(ps)[i] == StripEach(ps)[i]
    {
    }
  }

  /**
   * The category list of any text: nothing for blank text; otherwise the
   * trimmed text cut at every comma, each piece stripped of regex spaces on
   * both sides, with the empty pieces at the end dropped.
   */
  lemma CategoriesCutsAndStrips(text: string)
    ensures Categories(text) ==
      if Trim(text) == [] then [] else DropTrailingEmpty(StripEach(CutAtCommas(Trim(text))))
  {
    var t := Trim(text);
    if t != [] {
      RegexSpaceIsTrimmableContra(t[0]);
      RegexSpaceIsTrimmableContra(t[|t| - 1]);
      SplitFieldsIsReference(t);
      ReferenceOfTrimmed(t);
    }
  }

  /** Typing well-formed category names separated by ", " yields exactly that list, in order. */
  lemma CategoriesOfJoin(fields: seq<string>)
    requires |fields| > 0
    requires forall i :: 0 <= i < |fields| ==> WellFormedCategory(fields[i])
    ensures Categories(Join(fields, ", ")) == fields
  {
    JoinIsTrimmed(fields);
    SplitJoin(fields);
    assert WellFormedCategory(fields[|fields| - 1]);
    NothingTrailingToDrop(fields);
  }

  lemma JoinIsTrimmed(fields: seq<string>)
    requires |fields| > 0
    requires forall i :: 0 <= i < |fields| ==> WellFormedCategory(fields[i])
    ensures Join(fields, ", ") != [] && Trim(Join(fields, ", ")) == Join(fields, ", ")
  {
    var j := Join(fields, ", ");
    JoinEnds(fields, ", ");
    assert WellFormedCategory(fields[0]) && WellFormedCategory(fields[|fields| - 1]);
    TrimOfVisible(j);
  }

  lemma NothingTrailingToDrop(fields: seq<string>)
    requires |fields| > 0 && fields[|fields| - 1] != []
    ensures DropTrailingEmpty(fields) == fields
  {
  }
}

=== FILE: domain.dfy ===
/**
 * Value records exchanged with the Master. Doubles and floats are modelled
 * as reals; the store's price tier is received as an opaque label.
 */
module Domain {

  /** A store as the Master returns it; the client never changes one. */
  datatype Store = Store(name: string, category: string, stars: real, reviews: int, priceTier: string)

  /** A catalogue entry; in a selection, `quantity` holds the chosen amount instead of the stock. */
  datatype Product = Product(name: string, category: string, quantity: int, price: real)

  /** An order: customer name and email, then the chosen products in catalogue order. */
  datatype Purchase = Purchase(customerName: string, customerEmail: string, products: seq<Product>)

  /** The geo and attribute query (MapReduceRequest on the wire). */
  datatype FilterRequest = FilterRequest(
    latitude: real,
    longitude: real,
    categories: seq<string>,
    minStars: real,
    priceTier: string,
    radiusKm: real)

  /** Every search the client sends uses a 5 km radius. */
  const SEARCH_RADIUS_KM: real := 5.0

  /** The request an unfiltered nearby search sends: no category, no star or price filter. */
  function NearbyRequest(latitude: real, longitude: real): (r: FilterRequest)
    ensures r.latitude == latitude && r.longitude == longitude
    ensures r.categories == [] && r.minStars == 0.0 && r.priceTier == ""
    ensures r.radiusKm == SEARCH_RADIUS_KM && r.radiusKm > 0.0
  {
    FilterRequest(latitude, longitude, [], 0.0, "", SEARCH_RADIUS_KM)
  }
}

=== FILE: filter.dfy ===
/** FilterStoresActivity: building the filter request from the form and showing its result. */
module FilterScreen {
  import opened Wrappers
  import opened Domain
  import opened Protocol
  import opened Session
  import opened CategoryList
  import opened ScreenState

  /** The form: coordinate and category texts, the star slider's progress, the checked price button's label. */
  datatype FilterForm = FilterForm(
    latText: string,
    lonText: string,
    categoriesText: string,
    starsProgress: int,
    checkedPrice: Option<string>)

  /** The slider moves in tenths of a star. */
  function MinStars(progress: int): real {
    progress as real / 10.0
  }

  /**
   * The request filterStores builds, or why it refuses: only the coordinates
   * can be refused; categories, stars and price tier always have a value.
   */
  function BuildRequest(form: FilterForm, parse: string -> Option<real>): (r: Result<FilterRequest, InputError>)
    ensures r.Failure? <==> ParseLocation(form.latText, form.lonText, parse).Failure?
    ensures r.Failure? ==> r.error == ParseLocation(form.latText, form.lonText, parse).error
    ensures r.Success? ==>
      && (r.value.latitude, r.value.longitude) == ParseLocation(form.latText, form.lonText, parse).value
      && r.value.categories == Categories(form.categoriesText)
      && r.value.minStars == MinStars(form.starsProgress)
      && (form.checkedPrice.None? ==> r.value.priceTier == "")
      && (form.checkedPrice.Some? ==> r.value.priceTier == form.checkedPrice.value)
      && r.value.radiusKm == SEARCH_RADIUS_KM
  {
    match ParseLocation(form.latText, form.lonText, parse)
    case Failure(e) => Failure(e)
    case Success((lat, lon)) =>
      var tier := if form.checkedPrice.Some? then form.checkedPrice.value else "";
      Success(FilterRequest(lat, lon, Categories(form.categoriesText), MinStars(form.starsProgress), tier, SEARCH_RADIUS_KM))
  }

  /** The request always searches a positive radius, and non-negative progress gives a non-negative threshold. */
  lemma RequestBounds(form: FilterForm, parse: string -> Option<real>)
    requires BuildRequest(form, parse).Success?
    ensures BuildRequest(form, parse).value.radiusKm > 0.0
    ensures form.starsProgress >= 0 ==> BuildRequest(form, parse).value.minStars >= 0.0
  {
  }

  /** filterStores: a refused form changes nothing and starts nothing; otherwise the request is sent as built. */
  function Filter(s: ListScreen, form: FilterForm, parse: string -> Option<real>): (r: Step<ListScreen>)
    ensures BuildRequest(form, parse).Failure? ==> r.screen == s && r.request == None
    ensures BuildRequest(form, parse).Success? ==>
      InFlight(r.screen) && r.screen.stores == s.stores && r.request == Some(FilteredStores(BuildRequest(form, parse).value))
  {
    match BuildRequest(form, parse)
    case Failure(_) => Step(s, None)
    case Success(request) => Step(ShowProgress(s), Some(FilteredStores(request)))
  }

  /** onSuccess: the list is cleared; a non-empty reply fills and shows it, otherwise no-results is shown. */
  function OnSuccess(s: ListScreen, reply: WireObject): ListScreen {
    var stores := StoresIn(reply);
    var base := s.(progressVisible := false, buttonEnabled := true, stores := stores);
    if stores != [] then base.(listVisible := true) else base.(noResultsVisible := true)
  }

  /** onError: only the spinner and the button change. */
  function OnError(s: ListScreen): ListScreen {
    s.(progressVisible := false, buttonEnabled := true)
  }

  /** The one callback NetworkTask delivers for the outcome. */
  function OnComplete(s: ListScreen, outcome: Result<WireObject, NetError>): (r: ListScreen)
    ensures !r.progressVisible && r.buttonEnabled
    ensures outcome.Success? && StoresIn(outcome.value) != [] ==> r.listVisible && r.stores == StoresIn(outcome.value)
    ensures outcome.Success? && StoresIn(outcome.value) == [] ==> r.noResultsVisible && r.stores == []
    ensures outcome.Failure? ==> r.stores == s.stores && r.listVisible == s.listVisible && r.noResultsVisible == s.noResultsVisible
  {
    match outcome
    case Success(reply) => OnSuccess(s, reply)
    case Failure(_) => OnError(s)
  }

  /**
   * From any screen, a sent filter followed by a reply shows exactly one of the
   * list and the no-results text; followed by an error it shows neither.
   */
  lemma FilterThenComplete(s: ListScreen, form: FilterForm, parse: string -> Option<real>, outcome: Result<WireObject, NetError>)
    requires BuildRequest(form, parse).Success?
    ensures var r := OnComplete(Filter(s, form, parse).screen, outcome);
      && (outcome.Success? ==> Settled(r))
      && (outcome.Failure? ==> !r.listVisible && !r.noResultsVisible && r.stores == s.stores)
  {
  }
}

=== FILE: javatext.dfy ===
/**
 * The few pieces of java.lang behaviour the application's input handling
 * depends on: String.trim, Integer.parseInt and String.valueOf(int).
 */
module JavaText {
  import opened Wrappers

  /** Bounds of a Java int. */
  const INT_MIN: int := -0x8000_0000
  const INT_MAX: int := 0x7FFF_FFFF

  predicate InIntRange(n: int) {
    INT_MIN <= n <= INT_MAX
  }

  // ---------------------------------------------------------------------------
  // String.trim: drops every leading and trailing char whose code is at most
  // U+0020 (space and all control characters).
  // ---------------------------------------------------------------------------

  predicate IsTrimmable(c: char) {
    c <= ' '
  }

  function TrimStart(s: string): (r: string)
    ensures |r| <= |s|
    ensures r == [] || !IsTrimmable(r[0])
    ensures forall k :: 0 <= k < |s| - |r| ==> IsTrimmable(s[k])
    decreases |s|
  {
    if |s| > 0 && IsTrimmable(s[0]) then TrimStart(s[1..]) else s
  }

  function TrimEnd(s: string): (r: string)
    ensures |r| <= |s|
    ensures r == [] || !IsTrimmable(r[|r| - 1])
    ensures forall k :: |r| <= k < |s| ==> IsTrimmable(s[k])
    decreases |s|
  {
    if |s| > 0 && IsTrimmable(s[|s| - 1]) then TrimEnd(s[..|s| - 1]) else s
  }

  /** Trimming the front keeps a tail of the text. */
  lemma {:induction false} TrimStartIsSuffix(s: string)
    ensures TrimStart(s) == s[|s| - |TrimStart(s)|..]
    decreases |s|
  {
    if |s| > 0 && IsTrimmable(s[0]) {
      TrimStartIsSuffix(s[1..]);
    }
  }

  /** Trimming the back keeps a head of the text. */
  lemma {:induction false} TrimEndIsPrefix(s: string)
    ensures TrimEnd(s) == s[..|TrimEnd(s)|]
    decreases |s|
  {
    if |s| > 0 && IsTrimmable(s[|s| - 1]) {
      TrimEndIsPrefix(s[..|s| - 1]);
    }
  }

  /** String.trim(). */
  function Trim(s: string): (r: string)
    ensures r == [] || (!IsTrimmable(r[0]) && !IsTrimmable(r[|r| - 1]))
  {
    TrimEndIsPrefix(TrimStart(s));
    TrimEnd(TrimStart(s))
  }

  /** Number of chars that String.trim cuts from the front. */
  function TrimOffset(s: string): (r: nat)
    ensures r <= |s|
    ensures forall k :: 0 <= k < r ==> IsTrimmable(s[k])
  {
    |s| - |TrimStart(s)|
  }

  /**
   * A trimmed string is a contiguous slice of the original; everything cut
   * from either end is at most U+0020; and it is empty only for blank text.
   */
  lemma TrimIsSlice(s: string)
    ensures TrimOffset(s) + |Trim(s)| <= |s|
    ensures Trim(s) == s[TrimOffset(s)..TrimOffset(s) + |Trim(s)|]
    ensures forall k :: 0 <= k < TrimOffset(s) ==> IsTrimmable(s[k])
    ensures forall k :: TrimOffset(s) + |Trim(s)| <= k < |s| ==> IsTrimmable(s[k])
    ensures forall k :: 0 <= k < |s| && !IsTrimmable(s[k]) ==> Trim(s) != []
  {
    var t := TrimStart(s);
    var i := TrimOffset(s);
    TrimStartIsSuffix(s);
    TrimEndIsPrefix(t);
    assert Trim(s) == t[..|Trim(s)|];
    assert t[..|Trim(s)|] == s[i..i + |Trim(s)|];
    forall k | i + |Trim(s)| <= k < |s|
      ensures IsTrimmable(s[k])
    {
      assert t[k - i] == s[k];
    }
    forall k | 0 <= k < |s| && !IsTrimmable(s[k])
      ensures Trim(s) != []
    {
      assert k >= i;
      assert t[k - i] == s[k];
    }
  }

  /** Trimming is idempotent. */
  lemma TrimIdempotent(s: string)
    ensures Trim(Trim(s)) == Trim(s)
  {
    var t := Trim(s);
    assert TrimStart(t) == t;
    assert TrimEnd(t) == t;
  }

  /** A string whose first and last chars are visible is its own trim. */
  lemma TrimOfVisible(s: string)
    requires s == [] || (!IsTrimmable(s[0]) && !IsTrimmable(s[|s| - 1]))
    ensures Trim(s) == s
  {
  }

  // ---------------------------------------------------------------------------
  // Integer.parseInt(s) with radix 10, over ASCII digits.
  // ---------------------------------------------------------------------------

  predicate IsDigit(c: char) {
    '0' <= c <= '9'
  }

  predicate AllDigits(s: string) {
    forall k :: 0 <= k < |s| ==> IsDigit(s[k])
  }

  /** The value of a run of decimal digits, most significant first. */
  function DigitsValue(s: string): nat
    requires AllDigits(s)
    decreases |s|
  {
    if |s| == 0 then 0
    else DigitsValue(s[..|s| - 1]) * 10 + (s[|s| - 1] as int - '0' as int)
  }

  /**
   * Integer.parseInt: an optional leading '-' or '+', then at least one digit,
   * with a value that fits a Java int; anything else is a NumberFormatException,
   * modelled as None. No whitespace is skipped.
   */
  function ParseInt(s: string): (r: Option<int>)
    ensures r.Some? ==> InIntRange(r.value)
    ensures r.Some? ==> |s| > 0 && (IsDigit(s[0]) || s[0] == '-' || s[0] == '+')
    ensures r.Some? ==> IsDigit(s[|s| - 1])
  {
    if |s| == 0 then None
    else
      var signed := s[0] == '-' || s[0] == '+';
      var digits := if signed then s[1..] else s;
      if |digits| == 0 || !AllDigits(digits) then None
      else
        var magnitude: int := DigitsValue(digits);
        var v: int := if s[0] == '-' then -magnitude else magnitude;
        if InIntRange(v) then Some(v) else None
  }

  /** Any char that is neither a digit nor a leading sign makes the text unparseable. */
  lemma ParseIntRejectsNonDigit(s: string, i: int)
    requires 0 <= i < |s| && !IsDigit(s[i])
    requires i > 0 || (s[0] != '-' && s[0] != '+')
    ensures ParseInt(s) == None
  {
    var signed := s[0] == '-' || s[0] == '+';
    var digits := if signed then s[1..] else s;
    if signed {
      assert digits[i - 1] == s[i];
    } else {
      assert digits[i] == s[i];
    }
  }

  function Pow10(n: nat): (r: nat)
    ensures r >= 1
  {
    if n == 0 then 1 else 10 * Pow10(n - 1)
  }

  lemma {:induction false} Pow10AtLeast(n: nat)
    requires n >= 10
    ensures Pow10(n) >= 10_000_000_000
    decreases n
  {
    if n > 10 {
      Pow10AtLeast(n - 1);
    } else {
      assert Pow10(10) == 10_000_000_000;
    }
  }

  /** A digit string without a leading zero is worth at least ten to the power of its length less one. */
  lemma {:induction false} LeadingDigitBound(s: string)
    requires |s| > 0 && AllDigits(s) && s[0] != '0'
    ensures DigitsValue(s) >= Pow10(|s| - 1)
    ensures |s| > 10 ==> DigitsValue(s) > INT_MAX
    decreases |s|
  {
    if |s| > 10 {
      Pow10AtLeast(|s| - 1);
    }
    if |s| > 1 {
      var front := s[..|s| - 1];
      assert front[0] == s[0];
      LeadingDigitBound(front);
    }
  }

  /**
   * Integer.parseInt on an optional sign followed by ASCII digits: the signed
   * decimal value when it fits a Java int (leading zeros allowed), and a
   * NumberFormatException when it does not, so an over-long digit string is
   * never clamped.
   */
  lemma ParseIntValue(sign: string, ds: string)
    requires sign == "" || sign == "-" || sign == "+"
    requires |ds| > 0 && AllDigits(ds)
    ensures var v: int := if sign == "-" then -(DigitsValue(ds) as int) else DigitsValue(ds);
      && (InIntRange(v) ==> ParseInt(sign + ds) == Some(v))
      && (!InIntRange(v) ==> ParseInt(sign + ds) == None)
  {
    if sign == "" {
      assert sign + ds == ds;
      ParseUnsigned(ds);
    } else {
      ParseSigned(sign[0], ds);
      assert [sign[0]] == sign;
    }
  }

  lemma ParseUnsigned(ds: string)
    requires |ds| > 0 && AllDigits(ds)
    ensures ParseInt(ds) == if InIntRange(DigitsValue(ds)) then Some(DigitsValue(ds) as int) else None
  {
    assert IsDigit(ds[0]);
  }

  lemma ParseSigned(c: char, ds: string)
    requires c == '-' || c == '+'
    requires |ds| > 0 && AllDigits(ds)
    ensures var v: int := if c == '-' then -(DigitsValue(ds) as int) else DigitsValue(ds);
      ParseInt([c] + ds) == if InIntRange(v) then Some(v) else None
  {
    var s := [c] + ds;
    assert s[0] == c;
    assert s[1..] == ds;
  }

  // ---------------------------------------------------------------------------
  // String.valueOf(int): decimal digits, with '-' in front of negatives.
  // ---------------------------------------------------------------------------

  function DigitChar(d: int): char
    requires 0 <= d < 10
  {
    ('0' as int + d) as char
  }

  function ShowNat(n: nat): (r: string)
    ensures |r| > 0 && AllDigits(r)
    decreases n
  {
    if n < 10 then [DigitChar(n)] else ShowNat(n / 10) + [DigitChar(n % 10)]
  }

  /** String.valueOf(int). */
  function ShowInt(n: int): (r: string)
    ensures |r| > 0
    ensures n >= 0 ==> AllDigits(r)
    ensures n < 0 ==> r[0] == '-' && AllDigits(r[1..])
  {
    if n < 0 then "-" + ShowNat(-n) else ShowNat(n)
  }

  lemma {:induction false} ShowNatValue(n: nat)
    ensures DigitsValue(ShowNat(n)) == n
    decreases n
  {
    var s := ShowNat(n);
    if n >= 10 {
      ShowNatValue(n / 10);
      assert s[..|s| - 1] == ShowNat(n / 10);
    }
  }

  /** Parsing the decimal text of any Java int gives the int back. */
  lemma ParseShowInt(n: int)
    requires InIntRange(n)
    ensures ParseInt(ShowInt(n)) == Some(n)
  {
    var s := ShowInt(n);
    if n < 0 {
      var m: nat := -n;
      ShowNatValue(m);
      assert s == "-" + ShowNat(m);
      assert s[1..] == ShowNat(m);
      assert s[0] == '-';
    } else {
      ShowNatValue(n);
      assert s == ShowNat(n);
      assert IsDigit(s[0]);
    }
  }
}

=== FILE: nearby.dfy ===
/** NearbyStoresActivity: the unfiltered 5 km search and its list / no-results states. */
module NearbyScreen {
  import opened Wrappers
  import opened Domain
  import opened Protocol
  import opened Session
  import opened ScreenState

  /** onCreate hides the spinner, the list and the no-results text; the button starts enabled. */
  function Initial(): (s: ListScreen)
    ensures !s.progressVisible && !s.listVisible && !s.noResultsVisible && s.stores == []
  {
    ListScreen(false, true, false, false, [])
  }

  /**
   * searchNearbyStores: invalid coordinates leave the screen as it is and start
   * nothing; valid ones put the screen in flight and start a nearby search.
   */
  function Search(s: ListScreen, latText: string, lonText: string, parse: string -> Option<real>): (r: Step<ListScreen>)
    ensures ParseLocation(latText, lonText, parse).Failure? ==> r.screen == s && r.request == None
    ensures ParseLocation(latText, lonText, parse).Success? ==>
      var (lat, lon) := ParseLocation(latText, lonText, parse).value;
      InFlight(r.screen) && r.screen.stores == s.stores && r.request == Some(NearbyStores(lat, lon))
  {
    match ParseLocation(latText, lonText, parse)
    case Failure(_) => Step(s, None)
    case Success((lat, lon)) => Step(ShowProgress(s), Some(NearbyStores(lat, lon)))
  }

  /** onSuccess: the list is cleared and refilled; visibility follows whether anything came back. */
  function OnSuccess(s: ListScreen, reply: WireObject): ListScreen {
    var stores := StoresIn(reply);
    var base := s.(progressVisible := false, buttonEnabled := true, stores := stores);
    if stores != [] then base.(noResultsVisible := false, listVisible := true)
    else base.(listVisible := false, noResultsVisible := true)
  }

  /** onError: the no-results text is shown instead of the list; the list contents stay. */
  function OnError(s: ListScreen): ListScreen {
    s.(progressVisible := false, buttonEnabled := true, noResultsVisible := true, listVisible := false)
  }

  /**
   * The one callback NetworkTask delivers for the outcome. From any state the
   * screen ends settled: on a non-empty success the list shows exactly the
   * reply; on an empty or null one, or an error, only no-results is shown.
   */
  function OnComplete(s: ListScreen, outcome: Result<WireObject, NetError>): (r: ListScreen)
    ensures Settled(r)
    ensures outcome.Success? && StoresIn(outcome.value) != [] ==>
      r.listVisible && !r.noResultsVisible && r.stores == StoresIn(outcome.value)
    ensures outcome.Success? && StoresIn(outcome.value) == [] ==>
      !r.listVisible && r.noResultsVisible && r.stores == []
    ensures outcome.Failure? ==> !r.listVisible && r.noResultsVisible && r.stores == s.stores
  {
    match outcome
    case Success(reply) => OnSuccess(s, reply)
    case Failure(_) => OnError(s)
  }
}

=== FILE: protocol.dfy ===
/**
 * The SocketClient wire protocol: each operation writes a command tag and its
 * payload objects, one serialized object per frame, then reads one reply.
 */
module Protocol {
  import opened Wrappers
  import opened Domain

  /** One writeObject call. Tags and names are both Java strings; the model keeps them apart. */
  datatype Frame =
    | Tag(tag: string)
    | Req(request: FilterRequest)
    | Name(name: string)
    | Purch(purchase: Purchase)
    | IntF(value: int)

  /** The five public SocketClient operations with their arguments. */
  datatype Operation =
    | NearbyStores(latitude: real, longitude: real)
    | FilteredStores(request: FilterRequest)
    | StoreProducts(storeName: string)
    | SubmitPurchase(purchase: Purchase, storeName: string)
    | RateStore(storeName: string, rating: int)

  /** What the operation casts its one reply object to. */
  datatype ReplyKind = StoreListReply | ProductListReply | TextReply

  /** An object read back from the Master. `Foreign` is any object of another class. */
  datatype WireObject =
    | NullObject
    | StoreList(stores: seq<Store>)
    | ProductList(products: seq<Product>)
    | Text(text: string)
    | Foreign

  const CLIENT_TAG: string := "client"
  const FILTER_TAG: string := "filter"
  const FETCH_PRODUCTS_TAG: string := "fetchProducts"
  const PURCHASE_TAG: string := "purchase"
  const RATE_TAG: string := "rate"

  function CommandTag(op: Operation): string {
    match op
    case NearbyStores(_, _) => CLIENT_TAG
    case FilteredStores(_) => FILTER_TAG
    case StoreProducts(_) => FETCH_PRODUCTS_TAG
    case SubmitPurchase(_, _) => PURCHASE_TAG
    case RateStore(_, _) => RATE_TAG
  }

  function ExpectedReply(op: Operation): ReplyKind {
    match op
    case NearbyStores(_, _) => StoreListReply
    case FilteredStores(_) => StoreListReply
    case StoreProducts(_) => ProductListReply
    case SubmitPurchase(_, _) => TextReply
    case RateStore(_, _) => TextReply
  }

  /** The frames an operation writes, in order: its tag, then its payloads. */
  function Frames(op: Operation): (fs: seq<Frame>)
    ensures 2 <= |fs| <= 3
    ensures fs[0] == Tag(CommandTag(op))
    ensures forall i :: 1 <= i < |fs| ==> !fs[i].Tag?
  {
    match op
    case NearbyStores(lat, lon) => [Tag(CLIENT_TAG), Req(NearbyRequest(lat, lon))]
    case FilteredStores(request) => [Tag(FILTER_TAG), Req(request)]
    case StoreProducts(name) => [Tag(FETCH_PRODUCTS_TAG), Name(name)]
    case SubmitPurchase(purchase, name) => [Tag(PURCHASE_TAG), Purch(purchase), Name(name)]
    case RateStore(name, rating) => [Tag(RATE_TAG), Name(name), IntF(rating)]
  }

  /**
   * How the Master reads a request: the tag selects the operation, which fixes
   * how many payload frames follow and of which kind, in which order.
   */
  function Decode(fs: seq<Frame>): (op: Option<Operation>)
    ensures op.Some? ==> |fs| >= 2 && fs[0] == Tag(CommandTag(op.value))
  {
    if |fs| < 2 || !fs[0].Tag? then None
    else
      var tag := fs[0].tag;
      if tag == CLIENT_TAG && |fs| == 2 && fs[1].Req? then
        Some(NearbyStores(fs[1].request.latitude, fs[1].request.longitude))
      else if tag == FILTER_TAG && |fs| == 2 && fs[1].Req? then
        Some(FilteredStores(fs[1].request))
      else if tag == FETCH_PRODUCTS_TAG && |fs| == 2 && fs[1].Name? then
        Some(StoreProducts(fs[1].name))
      else if tag == PURCHASE_TAG && |fs| == 3 && fs[1].Purch? && fs[2].Name? then
        Some(SubmitPurchase(fs[1].purchase, fs[2].name))
      else if tag == RATE_TAG && |fs| == 3 && fs[1].Name? && fs[2].IntF? then
        Some(RateStore(fs[1].name, fs[2].value))
      else None
  }

  /** The Master recovers every operation from the frames the client writes. */
  lemma DecodeFrames(op: Operation)
    ensures Decode(Frames(op)) == Some(op)
  {
  }

  /** Different operations never put the same frames on the wire. */
  lemma FramesInjective(a: Operation, b: Operation)
    requires Frames(a) == Frames(b)
    ensures a == b
  {
    DecodeFrames(a);
    DecodeFrames(b);
  }

  /** A nearby search writes the "client" tag and the default 5 km request for its point. */
  lemma NearbyFrames(lat: real, lon: real)
    ensures var fs := Frames(NearbyStores(lat, lon));
      && |fs| == 2 && fs[0] == Tag("client") && fs[1].Req?
      && fs[1].request.latitude == lat && fs[1].request.longitude == lon
      && fs[1].request.categories == [] && fs[1].request.minStars == 0.0
      && fs[1].request.priceTier == "" && fs[1].request.radiusKm == 5.0
  {
  }

  /** The class of a non-null object read back, as far as the reply casts can tell it; None for null and foreign objects. */
  function ClassOf(obj: WireObject): Option<ReplyKind> {
    match obj
    case StoreList(_) => Some(StoreListReply)
    case ProductList(_) => Some(ProductListReply)
    case Text(_) => Some(TextReply)
    case _ => None
  }

  /**
   * Whether the Java cast of the reply to the expected class succeeds: null
   * passes every cast; any other object passes exactly the cast to its own
   * class, so an object of a foreign class fails every one.
   */
  function CastSucceeds(kind: ReplyKind, obj: WireObject): (ok: bool)
    ensures ok <==> obj.NullObject? || ClassOf(obj) == Some(kind)
    ensures obj.Foreign? ==> !ok
  {
    match obj
    case NullObject => true
    case StoreList(_) => kind == StoreListReply
    case ProductList(_) => kind == ProductListReply
    case Text(_) => kind == TextReply
    case Foreign => false
  }
}

=== FILE: purchase.dfy ===
/**
 * PurchaseActivity: fetch the store's catalogue, let the user pick
 * quantities, check the contact fields, confirm, and submit the order.
 */
module PurchaseScreen {
  import opened Wrappers
  import opened JavaText
  import opened Domain
  import opened Protocol
  import opened Session
  import opened ProductSelection
  import opened ScreenState

  /** The purchase screen: store, selection adapter, widget states, and whether the activity has finished. */
  datatype PurchaseView = PurchaseView(
    storeName: string,
    adapter: Adapter,
    progressVisible: bool,
    listVisible: bool,
    buttonEnabled: bool,
    finished: bool,
    dialog: Dialog)

  /** What every transition below keeps: the adapter's lists stay parallel. */
  predicate Usable(v: PurchaseView) {
    WellFormed(v.adapter)
  }

  /**
   * onCreate: without a store the activity finishes at once; otherwise it
   * builds the adapter over the still-empty catalogue and starts the fetch.
   */
  function Open(store: Option<Store>): (r: Step<PurchaseView>)
    ensures Usable(r.screen)
    ensures store.None? ==> r.screen.finished && r.request == None
    ensures store.Some? ==>
      && !r.screen.finished && r.screen.progressVisible && !r.screen.listVisible && !r.screen.buttonEnabled
      && r.screen.adapter.products == []
      && r.request == Some(StoreProducts(store.value.name))
  {
    match store
    case None => Step(PurchaseView("", NewAdapter([]), false, false, false, true, NoDialog), None)
    case Some(st) => Step(PurchaseView(st.name, NewAdapter([]), true, false, false, false, NoDialog), Some(StoreProducts(st.name)))
  }

  /**
   * The fetch callback: a non-empty catalogue replaces the product list and is
   * shown; a null or empty one, or an error, ends the screen.
   */
  function OnFetchComplete(v: PurchaseView, outcome: Result<WireObject, NetError>): (r: PurchaseView)
    requires Usable(v)
    ensures Usable(r) && !r.progressVisible
    ensures outcome.Success? && ProductsIn(outcome.value) != [] ==>
      && r.adapter == NewAdapter(ProductsIn(outcome.value))
      && r.listVisible && r.buttonEnabled && r.finished == v.finished
    ensures outcome.Success? && ProductsIn(outcome.value) == [] ==> r.finished && r.adapter.products == []
    ensures outcome.Failure? ==> r.finished && r.adapter == v.adapter
  {
    match outcome
    case Success(reply) =>
      var products := ProductsIn(reply);
      var base := v.(progressVisible := false, buttonEnabled := true, adapter := Refill(v.adapter, products));
      if products != [] then base.(listVisible := true) else base.(finished := true)
    case Failure(_) => v.(progressVisible := false, finished := true)
  }

  /**
   * The quantity field of one row is edited. When the watcher writes text
   * back, setText fires the watcher again at once, before the outer call
   * stores its own value; the outer store comes last, so the row ends with
   * the outer call's value whatever the nested call stored.
   */
  function EditQuantity(v: PurchaseView, position: nat, text: string): (r: PurchaseView)
    requires Usable(v) && position < |v.adapter.products|
    ensures Usable(r)
    ensures r.adapter == AfterTextChanged(v.adapter, position, text).adapter
    ensures r.storeName == v.storeName && r.finished == v.finished && r.dialog == v.dialog
  {
    var e := AfterTextChanged(v.adapter, position, text);
    var nested := if e.rewrite.Some? then AfterTextChanged(v.adapter, position, e.rewrite.value).adapter else v.adapter;
    var settled := SetQuantity(nested, position, e.adapter.quantities[position]);
    assert settled.quantities == e.adapter.quantities;
    v.(adapter := settled)
  }

  /** Over real stock, editing a row keeps every row within its stock. */
  lemma EditQuantityKeepsWithinStock(v: PurchaseView, position: nat, text: string)
    requires Usable(v) && position < |v.adapter.products|
    requires ValidStock(v.adapter.products) && WithinStock(v.adapter)
    ensures WithinStock(EditQuantity(v, position, text).adapter)
  {
    EditKeepsWithinStock(v.adapter, position, text);
  }

  /** Why purchaseProducts stops before the confirmation dialog. */
  datatype PurchaseError = MissingContact | NothingSelected

  /**
   * purchaseProducts: both contact fields are trimmed and must be non-empty,
   * then at least one product must be selected. Nothing is sent here: the
   * order only goes out once the dialog is confirmed.
   */
  function PurchaseProducts(v: PurchaseView, nameText: string, emailText: string): (r: Result<Purchase, PurchaseError>)
    requires Usable(v)
    ensures (Trim(nameText) == [] || Trim(emailText) == []) ==> r == Failure(MissingContact)
    ensures Trim(nameText) != [] && Trim(emailText) != [] && SelectedProducts(v.adapter) == [] ==>
      r == Failure(NothingSelected)
    ensures r.Success? ==>
      && r.value.customerName == Trim(nameText) && r.value.customerName != []
      && r.value.customerEmail == Trim(emailText) && r.value.customerEmail != []
      && r.value.products == SelectedProducts(v.adapter) && r.value.products != []
  {
    var name := Trim(nameText);
    var email := Trim(emailText);
    if name == [] || email == [] then Failure(MissingContact)
    else
      var selected := SelectedProducts(v.adapter);
      if selected == [] then Failure(NothingSelected)
      else Success(Purchase(name, email, selected))
  }

  /** Every product in an accepted order asks for between one unit and that product's stock. */
  lemma OrderWithinStock(v: PurchaseView, nameText: string, emailText: string)
    requires Usable(v) && WithinStock(v.adapter)
    requires PurchaseProducts(v, nameText, emailText).Success?
    ensures var order := PurchaseProducts(v, nameText, emailText).value;
      var idx := PositiveRows(v.adapter.quantities);
      && |order.products| == |idx|
      && forall j :: 0 <= j < |order.products| ==>
           && 1 <= order.products[j].quantity <= v.adapter.products[idx[j]].quantity
           && order.products[j].name == v.adapter.products[idx[j]].name
  {
    SelectedWithinStock(v.adapter);
    SelectionProjects(v.adapter.products, v.adapter.quantities);
  }

  /** The confirmation dialog's positive button: the order and then the store name go out. */
  function Confirm(v: PurchaseView, order: Purchase): (r: Step<PurchaseView>)
    ensures r.screen.progressVisible && !r.screen.buttonEnabled
    ensures r.screen.adapter == v.adapter
    ensures r.request == Some(SubmitPurchase(order, v.storeName))
    ensures Frames(r.request.value) == [Tag(PURCHASE_TAG), Purch(order), Name(v.storeName)]
  {
    Step(v.(progressVisible := true, buttonEnabled := false), Some(SubmitPurchase(order, v.storeName)))
  }

  /** The submit callback: a reply is shown verbatim; an error re-enables the button. */
  function OnSubmitComplete(v: PurchaseView, outcome: Result<WireObject, NetError>): (r: PurchaseView)
    ensures !r.progressVisible && r.adapter == v.adapter
    ensures outcome.Success? ==> r.dialog == ResultDialog(TextIn(outcome.value)) && r.buttonEnabled == v.buttonEnabled
    ensures outcome.Failure? ==> r.buttonEnabled && r.dialog == v.dialog
  {
    match outcome
    case Success(reply) => v.(progressVisible := false, dialog := ResultDialog(TextIn(reply)))
    case Failure(_) => v.(progressVisible := false, buttonEnabled := true)
  }

  /** The result dialog's OK button ends the screen. */
  function DismissResult(v: PurchaseView): (r: PurchaseView)
    ensures r.finished && r.adapter == v.adapter
  {
    v.(finished := true)
  }
}

=== FILE: rating.dfy ===
/** RateStoreActivity: pick the store name, check the stars, confirm, send. */
module RatingScreen {
  import opened Wrappers
  import opened JavaText
  import opened Protocol
  import opened Session
  import opened ScreenState

  /** The rating screen; an empty store name stands for a missing or empty intent extra. */
  datatype RatingView = RatingView(
    storeName: string,
    progressVisible: bool,
    submitEnabled: bool,
    finished: bool,
    dialog: Dialog)

  /** onCreate: the store name comes from the intent when there is one. */
  function Open(extraName: Option<string>): (v: RatingView)
    ensures extraName.Some? ==> v.storeName == extraName.value
    ensures extraName.None? ==> v.storeName == []
    ensures !v.progressVisible && v.submitEnabled && !v.finished && v.dialog == NoDialog
  {
    RatingView(if extraName.Some? then extraName.value else [], false, true, false, NoDialog)
  }

  /** Why submitRating stops before the confirmation dialog. */
  datatype RatingError = MissingStoreName | NoStars

  /** What submitRating does next: refuse, or ask to confirm sending this name and rating. */
  datatype Decision = Rejected(error: RatingError) | AskToConfirm(storeName: string, rating: int)

  datatype Submitted = Submitted(screen: RatingView, decision: Decision)

  /**
   * submitRating with the field's text and the rounded star count. Without a
   * name from the intent the trimmed field text is taken and kept for later
   * submits, even when this one is refused; an empty name is refused, then a
   * rating below 1. There is no upper bound check.
   */
  function SubmitRating(v: RatingView, fieldText: string, rating: int): (r: Submitted)
    ensures v.storeName != [] ==> r.screen == v
    ensures v.storeName == [] ==> r.screen == v.(storeName := Trim(fieldText))
    ensures r.screen.storeName == [] ==> r.decision == Rejected(MissingStoreName)
    ensures r.screen.storeName != [] && rating < 1 ==> r.decision == Rejected(NoStars)
    ensures r.screen.storeName != [] && rating >= 1 ==> r.decision == AskToConfirm(r.screen.storeName, rating)
  {
    var v' := if v.storeName == [] then v.(storeName := Trim(fieldText)) else v;
    if v'.storeName == [] then Submitted(v', Rejected(MissingStoreName))
    else if rating < 1 then Submitted(v', Rejected(NoStars))
    else Submitted(v', AskToConfirm(v'.storeName, rating))
  }

  /** Once a name has been taken from the field, later submits use it whatever the field holds. */
  lemma StoreNameIsKept(v: RatingView, firstText: string, firstRating: int, laterText: string, laterRating: int)
    requires SubmitRating(v, firstText, firstRating).screen.storeName != []
    ensures var v1 := SubmitRating(v, firstText, firstRating).screen;
      && SubmitRating(v1, laterText, laterRating).screen.storeName == v1.storeName
      && (laterRating >= 1 ==> SubmitRating(v1, laterText, laterRating).decision == AskToConfirm(v1.storeName, laterRating))
  {
  }

  /** sendRating: exactly the confirmed name and rating go out after the "rate" tag. */
  function SendRating(v: RatingView, storeName: string, rating: int): (r: Step<RatingView>)
    ensures r.screen.progressVisible && !r.screen.submitEnabled
    ensures r.request == Some(RateStore(storeName, rating))
    ensures Frames(r.request.value) == [Tag(RATE_TAG), Name(storeName), IntF(rating)]
  {
    Step(v.(progressVisible := true, submitEnabled := false), Some(RateStore(storeName, rating)))
  }

  /** The send callback: a reply is shown verbatim; an error re-enables submit. */
  function OnRateComplete(v: RatingView, outcome: Result<WireObject, NetError>): (r: RatingView)
    ensures !r.progressVisible && r.storeName == v.storeName
    ensures outcome.Success? ==> r.dialog == ResultDialog(TextIn(outcome.value)) && r.submitEnabled == v.submitEnabled
    ensures outcome.Failure? ==> r.submitEnabled && r.dialog == v.dialog
  {
    match outcome
    case Success(reply) => v.(progressVisible := false, dialog := ResultDialog(TextIn(reply)))
    case Failure(_) => v.(progressVisible := false, submitEnabled := true)
  }

  /** The result dialog's OK button ends the screen. */
  function DismissResult(v: RatingView): (r: RatingView)
    ensures r.finished
  {
    v.(finished := true)
  }
}

=== FILE: scenarios.dfy ===
/**
 * End-to-end walks through the screens with concrete inputs: what reaches the
 * wire and what the user sees. Double.parseDouble stays a parameter; each
 * scenario only fixes its value on the texts involved.
 */
module Scenarios {
  import opened Wrappers
  import opened JavaText
  import opened Domain
  import opened Protocol
  import opened Session
  import opened ProductSelection
  import opened ScreenState
  import opened CategoryList
  import NearbyScreen
  import FilterScreen
  import PurchaseScreen
  import RatingScreen

  /** A nearby search at (37.98, 23.73) sends the "client" tag and the default request; two stores fill the list. */
  lemma NearbySearchShowsTwoStores(parse: string -> Option<real>, a: Store, b: Store)
    requires parse("37.98") == Some(37.98) && parse("23.73") == Some(23.73)
    ensures var step := NearbyScreen.Search(NearbyScreen.Initial(), "37.98", "23.73", parse);
      && step.request.Some?
      && Frames(step.request.value) == [Tag("client"), Req(FilterRequest(37.98, 23.73, [], 0.0, "", 5.0))]
      && var shown := NearbyScreen.OnComplete(step.screen, Success(StoreList([a, b])));
      |shown.stores| == 2 && shown.listVisible && !shown.noResultsVisible
  {
  }

  /** An empty reply shows the no-results text and hides the list. */
  lemma NearbySearchEmptyReply(s: ListScreen)
    ensures var shown := NearbyScreen.OnComplete(s, Success(StoreList([])));
      shown.noResultsVisible && !shown.listVisible && shown.stores == []
  {
  }

  /** Two categories, 3.5 stars and the "€€" tier are sent as given after the "filter" tag. */
  lemma FilterSendsTheForm(s: ListScreen, parse: string -> Option<real>)
    requires parse("37.98") == Some(37.98) && parse("23.73") == Some(23.73)
    ensures var form := FilterScreen.FilterForm("37.98", "23.73", "Pizza, Sushi", 35, Some("€€"));
      var step := FilterScreen.Filter(s, form, parse);
      step.request == Some(FilteredStores(FilterRequest(37.98, 23.73, ["Pizza", "Sushi"], 3.5, "€€", 5.0)))
  {
    PizzaSushi();
  }

  /** The category text of the filter scenario splits into its two names. */
  lemma PizzaSushi()
    ensures Categories("Pizza, Sushi") == ["Pizza", "Sushi"]
  {
    var fields := ["Pizza", "Sushi"];
    assert fields[1..] == ["Sushi"];
    assert Join(fields, ", ") == "Pizza, Sushi";
    assert WellFormedCategory(fields[0]) && WellFormedCategory(fields[1]);
    CategoriesOfJoin(fields);
  }

  /** A latitude that is not a number starts nothing. */
  lemma FilterRejectsBadLatitude(s: ListScreen, parse: string -> Option<real>, form: FilterScreen.FilterForm)
    requires parse("abc") == None && form.latText == "abc" && form.lonText != []
    ensures FilterScreen.Filter(s, form, parse) == Step(s, None)
  {
  }

  /** Typing a quantity within stock stores exactly that quantity. */
  lemma TypeQuantity(a: Adapter, position: nat, n: int)
    requires WellFormed(a) && position < |a.products|
    requires 0 <= n <= a.products[position].quantity <= INT_MAX
    ensures AfterTextChanged(a, position, ShowInt(n)).adapter.quantities == a.quantities[position := n]
  {
    ParseShowInt(n);
  }

  /** A lone minus sign is what Integer.parseInt rejects, so the row is reset to 0 and "0" written back. */
  lemma TypeMinusSign(a: Adapter, position: nat)
    requires WellFormed(a) && position < |a.products|
    ensures var e := AfterTextChanged(a, position, "-");
      e.adapter.quantities[position] == 0 && e.rewrite == Some("0")
  {
    assert !IsDigit("-"[0]);
  }

  /** Eleven nines overflow a Java int, so the row is reset to 0 rather than clamped to its stock. */
  lemma TypeHugeQuantity(a: Adapter, position: nat)
    requires WellFormed(a) && position < |a.products| && a.products[position].quantity == 10
    ensures AfterTextChanged(a, position, "99999999999").adapter.quantities[position] == 0
  {
    var ds := "99999999999";
    LeadingDigitBound(ds);
    OutOfRangeQuantityResets(a, position, ds);
  }

  /** Typing "2" on the first row and "1" on the second of a fresh two-row adapter. */
  function TwoAndOne(a: Adapter): (r: Adapter)
    requires WellFormed(a) && |a.products| == 2
  {
    var a1 := AfterTextChanged(a, 0, ShowInt(2)).adapter;
    AfterTextChanged(a1, 1, ShowInt(1)).adapter
  }

  lemma TwoAndOneQuantities(burger: Product, fries: Product)
    requires 2 <= burger.quantity <= INT_MAX && 1 <= fries.quantity <= INT_MAX
    ensures TwoAndOne(NewAdapter([burger, fries])) == Adapter([burger, fries], [2, 1])
  {
    var a := NewAdapter([burger, fries]);
    assert a.quantities == [0, 0];
    var a1 := AfterTextChanged(a, 0, ShowInt(2)).adapter;
    TypeQuantity(a, 0, 2);
    assert a1.quantities == [2, 0];
    TypeQuantity(a1, 1, 1);
  }

  /**
   * Two burgers and one portion of fries, ordered by a named customer: the
   * order carries exactly those rows, and confirming it writes the
   * "purchase" tag, the order and the store name.
   */
  lemma PurchaseBurgersAndFries(v: PurchaseScreen.PurchaseView, burger: Product, fries: Product)
    requires v.adapter == NewAdapter([burger, fries])
    requires 2 <= burger.quantity <= INT_MAX && 1 <= fries.quantity <= INT_MAX
    ensures var v2 := v.(adapter := TwoAndOne(v.adapter));
      var order := PurchaseScreen.PurchaseProducts(v2, "  Maria ", "maria@example.com");
      && order == Success(Purchase("Maria", "maria@example.com", [WithQuantity(burger, 2), WithQuantity(fries, 1)]))
      && Frames(PurchaseScreen.Confirm(v2, order.value).request.value)
         == [Tag("purchase"), Purch(order.value), Name(v.storeName)]
  {
    TwoAndOneQuantities(burger, fries);
    SelectionOfTwo(burger, fries, 2, 1);
    TrimMaria();
    TrimOfVisible("maria@example.com");
  }

  lemma TrimMaria()
    ensures Trim("  Maria ") == "Maria"
  {
    TrimStartMaria();
    TrimEndMaria();
  }

  lemma TrimStartMaria()
    ensures TrimStart("  Maria ") == "Maria "
  {
    assert TrimStart("Maria ") == "Maria ";
    assert " Maria "[1..] == "Maria ";
    assert TrimStart(" Maria ") == "Maria ";
    assert "  Maria "[1..] == " Maria ";
  }

  lemma TrimEndMaria()
    ensures TrimEnd("Maria ") == "Maria"
  {
    assert TrimEnd("Maria") == "Maria";
    assert "Maria "[..5] == "Maria";
  }

  /** Selecting from two rows that are both positive keeps both, in order. */
  lemma SelectionOfTwo(p: Product, q: Product, m: int, n: int)
    requires m > 0 && n > 0
    ensures Selection([p, q], [m, n]) == [WithQuantity(p, m), WithQuantity(q, n)]
  {
    assert [p, q][..1] == [p];
    assert [m, n][..1] == [m];
    assert [p][..0] == [];
    assert [m][..0] == [];
    assert Selection([p], [m]) == [WithQuantity(p, m)];
  }

  /**
   * One burger in stock and one portion of fries chosen: the holder that
   * showed the burgers is reused for the fries, and its old watcher puts a
   * burger in the order. The corrected bind leaves the order as it was.
   */
  lemma ScrollAddsBurger(burger: Product, fries: Product)
    requires burger.quantity == 1 && 1 <= fries.quantity <= INT_MAX
    ensures var a := Adapter([burger, fries], [0, 1]);
      && BindAsWritten(a, Holder(Some(0)), 1).0.quantities == [1, 1]
      && Bind(a, Holder(Some(0)), 1).0.quantities == [0, 1]
  {
    var a := Adapter([burger, fries], [0, 1]);
    RebindAsWrittenOverwritesRow(a, 0, 1);
  }

  /** A rating of 0 stars is refused and nothing is sent; 5 stars are confirmed and written as "rate", name, 5. */
  lemma RatingZeroRefusedFiveSent(name: string)
    requires name != []
    ensures var v := RatingScreen.Open(Some(name));
      && RatingScreen.SubmitRating(v, "", 0).decision == RatingScreen.Rejected(RatingScreen.NoStars)
      && RatingScreen.SubmitRating(v, "", 5).decision == RatingScreen.AskToConfirm(name, 5)
      && Frames(RatingScreen.SendRating(v, name, 5).request.value) == [Tag("rate"), Name(name), IntF(5)]
  {
  }
}

=== FILE: screenstate.dfy ===
/**
 * What the screens share: the result of a user action (new screen state plus
 * the operation, if any, handed to a worker thread), the visibility record of
 * the two store-list screens, the coordinate gate in front of every search,
 * and how a reply object reaches a callback.
 */
module ScreenState {
  import opened Wrappers
  import opened Domain
  import opened Protocol

  /** A user action's effect: the next screen state and the operation started, if any. */
  datatype Step<S> = Step(screen: S, request: Option<Operation>)

  /** The widgets of a store-list screen and the contents of its list. */
  datatype ListScreen = ListScreen(
    progressVisible: bool,
    buttonEnabled: bool,
    listVisible: bool,
    noResultsVisible: bool,
    stores: seq<Store>)

  /** While a request is in flight: spinner shown, button disabled, list and no-results hidden. */
  predicate InFlight(s: ListScreen) {
    s.progressVisible && !s.buttonEnabled && !s.listVisible && !s.noResultsVisible
  }

  /** After a completion: spinner hidden, button enabled, exactly one of list and no-results shown. */
  predicate Settled(s: ListScreen) {
    !s.progressVisible && s.buttonEnabled && s.listVisible != s.noResultsVisible
  }

  /** The four visibility calls made just before a search is started. */
  function ShowProgress(s: ListScreen): (r: ListScreen)
    ensures InFlight(r) && r.stores == s.stores
  {
    s.(progressVisible := true, buttonEnabled := false, noResultsVisible := false, listVisible := false)
  }

  /** A result dialog, showing the reply string verbatim (None for a null reply). */
  datatype Dialog = NoDialog | ResultDialog(message: Option<string>)

  /** Why a search never reached the network. */
  datatype InputError = MissingCoordinates | NotANumber

  /**
   * The latitude/longitude gate of both search screens: empty text is refused
   * first; then both texts go through Double.parseDouble (given here as
   * `parse`, None where Java throws NumberFormatException).
   */
  function ParseLocation(latText: string, lonText: string, parse: string -> Option<real>): (r: Result<(real, real), InputError>)
    ensures (latText == [] || lonText == []) ==> r == Failure(MissingCoordinates)
    ensures latText != [] && lonText != [] ==>
      (r.Success? <==> parse(latText).Some? && parse(lonText).Some?)
    ensures r.Failure? && latText != [] && lonText != [] ==> r.error == NotANumber
    ensures r.Success? ==> r.value == (parse(latText).value, parse(lonText).value)
  {
    if latText == [] || lonText == [] then Failure(MissingCoordinates)
    else
      match (parse(latText), parse(lonText))
      case (Some(lat), Some(lon)) => Success((lat, lon))
      case _ => Failure(NotANumber)
  }

  /** The store list a callback receives; a null reply and an empty list are treated alike. */
  function StoresIn(obj: WireObject): seq<Store> {
    match obj
    case StoreList(stores) => stores
    case _ => []
  }

  /** The product list a callback receives; null counts as empty. */
  function ProductsIn(obj: WireObject): seq<Product> {
    match obj
    case ProductList(products) => products
    case _ => []
  }

  /** The status string a callback receives; None for a null reply. */
  function TextIn(obj: WireObject): Option<string> {
    match obj
    case Text(t) => Some(t)
    case _ => None
  }
}

=== FILE: selection.dfy ===
/**
 * ProductSelectionAdapter: a list of chosen quantities kept parallel to the
 * catalogue, edited one row at a time from a text field, and projected into
 * new Product values for the rows with a positive quantity.
 */
module ProductSelection {
  import opened Wrappers
  import opened JavaText
  import opened Domain

  /** The adapter's two lists. */
  datatype Adapter = Adapter(products: seq<Product>, quantities: seq<int>)

  /** One quantity per catalogue row: what the constructor sets up and every access relies on. */
  predicate WellFormed(a: Adapter) {
    |a.quantities| == |a.products|
  }

  /** Catalogue stock as the Master reports it: a non-negative Java int. */
  predicate ValidStock(products: seq<Product>) {
    forall i :: 0 <= i < |products| ==> 0 <= products[i].quantity <= INT_MAX
  }

  /** No row asks for more than its stock. */
  predicate WithinStock(a: Adapter)
    requires WellFormed(a)
  {
    forall i :: 0 <= i < |a.products| ==> a.quantities[i] <= a.products[i].quantity
  }

  /** The constructor: the given catalogue with a quantity of 0 for every row. */
  function NewAdapter(products: seq<Product>): (a: Adapter)
    ensures WellFormed(a) && a.products == products
    ensures forall i :: 0 <= i < |a.quantities| ==> a.quantities[i] == 0
  {
    Adapter(products, seq(|products|, _ => 0))
  }

  /** A fresh adapter over real stock already respects the stock bound. */
  lemma NewAdapterWithinStock(products: seq<Product>)
    requires ValidStock(products)
    ensures WithinStock(NewAdapter(products))
  {
  }

  // ---------------------------------------------------------------------------
  // afterTextChanged
  // ---------------------------------------------------------------------------

  /** The adapter after an edit, and the text the watcher writes back into the field, if any. */
  datatype Edit = Edit(adapter: Adapter, rewrite: Option<string>)

  function SetQuantity(a: Adapter, position: nat, q: int): (r: Adapter)
    requires position < |a.quantities|
  {
    a.(quantities := a.quantities[position := q])
  }

  /**
   * The quantity field of row `position` now reads `text`. Empty text means 0;
   * a value above the row's stock is replaced by the stock, which is also
   * written back to the field; text Integer.parseInt rejects resets the row
   * to 0 and writes "0" back.
   */
  function AfterTextChanged(a: Adapter, position: nat, text: string): (e: Edit)
    requires WellFormed(a) && position < |a.products|
    ensures WellFormed(e.adapter) && e.adapter.products == a.products
    ensures forall i :: 0 <= i < |a.quantities| && i != position ==> e.adapter.quantities[i] == a.quantities[i]
    ensures e.adapter.quantities[position] <= a.products[position].quantity || e.adapter.quantities[position] == 0
    ensures text == [] && a.products[position].quantity >= 0 ==> e.adapter.quantities[position] == 0 && e.rewrite == None
    ensures text != [] && ParseInt(text).None? ==> e.adapter.quantities[position] == 0 && e.rewrite == Some("0")
    ensures ParseInt(text).Some? && ParseInt(text).value <= a.products[position].quantity ==>
      e.adapter.quantities[position] == ParseInt(text).value && e.rewrite == None
    ensures ParseInt(text).Some? && ParseInt(text).value > a.products[position].quantity ==>
      && e.adapter.quantities[position] == a.products[position].quantity
      && e.rewrite == Some(ShowInt(a.products[position].quantity))
  {
    var stock := a.products[position].quantity;
    var parsed := if text == [] then Some(0) else ParseInt(text);
    match parsed
    case None => Edit(SetQuantity(a, position, 0), Some("0"))
    case Some(n) =>
      if n > stock then Edit(SetQuantity(a, position, stock), Some(ShowInt(stock)))
      else Edit(SetQuantity(a, position, n), None)
  }

  /**
   * The text written back by the watcher fires the watcher once more. For real
   * stock that second call changes nothing and writes nothing back, so the
   * re-entry always stops after one round.
   */
  lemma RewriteIsFixedPoint(a: Adapter, position: nat, text: string)
    requires WellFormed(a) && position < |a.products|
    requires 0 <= a.products[position].quantity <= INT_MAX
    requires AfterTextChanged(a, position, text).rewrite.Some?
    ensures var e := AfterTextChanged(a, position, text);
      AfterTextChanged(e.adapter, position, e.rewrite.value) == Edit(e.adapter, None)
  {
    var stock := a.products[position].quantity;
    var e := AfterTextChanged(a, position, text);
    ParseShowInt(stock);
    ParseShowInt(0);
    assert ShowInt(0) == "0";
    assert e.adapter.quantities[position := e.adapter.quantities[position]] == e.adapter.quantities;
  }

  /** Every edit keeps every row within its stock. */
  lemma EditKeepsWithinStock(a: Adapter, position: nat, text: string)
    requires WellFormed(a) && position < |a.products|
    requires ValidStock(a.products) && WithinStock(a)
    ensures WithinStock(AfterTextChanged(a, position, text).adapter)
  {
  }

  /**
   * Digits beyond the int range are not clamped to the stock: Integer.parseInt
   * throws, so the row is reset to 0 and "0" is written back.
   */
  lemma OutOfRangeQuantityResets(a: Adapter, position: nat, ds: string)
    requires WellFormed(a) && position < |a.products|
    requires |ds| > 0 && AllDigits(ds) && DigitsValue(ds) > INT_MAX
    ensures var e := AfterTextChanged(a, position, ds);
      e.adapter.quantities[position] == 0 && e.rewrite == Some("0")
  {
    ParseIntValue("", ds);
    assert "" + ds == ds;
  }

  // ---------------------------------------------------------------------------
  // getSelectedProducts
  // ---------------------------------------------------------------------------

  /** The catalogue entry with the chosen quantity in place of its stock. */
  function WithQuantity(p: Product, q: int): (r: Product)
    ensures r.name == p.name && r.category == p.category && r.price == p.price && r.quantity == q
  {
    Product(p.name, p.category, q, p.price)
  }

  /** The rows with a positive quantity, in increasing order. */
  function PositiveRows(qs: seq<int>): (idx: seq<nat>)
    ensures forall j :: 0 <= j < |idx| ==> idx[j] < |qs| && qs[idx[j]] > 0
    ensures forall j, k :: 0 <= j < k < |idx| ==> idx[j] < idx[k]
    ensures forall i :: 0 <= i < |qs| && qs[i] > 0 ==> i in idx
    decreases |qs|
  {
    if qs == [] then []
    else
      var front := PositiveRows(qs[..|qs| - 1]);
      if qs[|qs| - 1] > 0 then front + [|qs| - 1] else front
  }

  /** `r` holds, for each listed row in turn, that row's product with that row's quantity. */
  predicate Projects(r: seq<Product>, ps: seq<Product>, qs: seq<int>, idx: seq<nat>)
    requires |ps| == |qs|
  {
    && |r| == |idx|
    && forall j :: 0 <= j < |r| ==> idx[j] < |ps| && r[j] == WithQuantity(ps[idx[j]], qs[idx[j]])
  }

  /**
   * getSelectedProducts over two parallel lists: at most one new Product per
   * row, each carrying a positive quantity (SelectionProjects states exactly
   * which rows, in which order).
   */
  function Selection(ps: seq<Product>, qs: seq<int>): (r: seq<Product>)
    requires |ps| == |qs|
    ensures |r| <= |ps|
    ensures forall j :: 0 <= j < |r| ==> r[j].quantity > 0
    decreases |ps|
  {
    if ps == [] then []
    else
      var n := |ps| - 1;
      var front := Selection(ps[..n], qs[..n]);
      if qs[n] > 0 then front + [WithQuantity(ps[n], qs[n])] else front
  }

  /**
   * The selection lists, in catalogue order, exactly the rows with a positive
   * quantity, each as its catalogue entry carrying the chosen quantity.
   */
  lemma {:induction false} SelectionProjects(ps: seq<Product>, qs: seq<int>)
    requires |ps| == |qs|
    ensures Projects(Selection(ps, qs), ps, qs, PositiveRows(qs))
    decreases |ps|
  {
    if ps != [] {
      var n := |ps| - 1;
      SelectionProjects(ps[..n], qs[..n]);
      SelectionStep(ps, qs, Selection(ps[..n], qs[..n]), Selection(ps, qs));
    }
  }

  lemma SelectionStep(ps: seq<Product>, qs: seq<int>, front: seq<Product>, r: seq<Product>)
    requires |ps| == |qs| > 0
    requires Projects(front, ps[..|ps| - 1], qs[..|qs| - 1], PositiveRows(qs[..|qs| - 1]))
    requires var n := |ps| - 1; r == if qs[n] > 0 then front + [WithQuantity(ps[n], qs[n])] else front
    ensures Projects(r, ps, qs, PositiveRows(qs))
  {
    var n := |ps| - 1;
    var fidx := PositiveRows(qs[..n]);
    var idx := PositiveRows(qs);
    assert idx == if qs[n] > 0 then fidx + [n] else fidx;
    forall j | 0 <= j < |front|
      ensures r[j] == WithQuantity(ps[idx[j]], qs[idx[j]])
    {
      assert idx[j] == fidx[j] < n;
      assert ps[..n][fidx[j]] == ps[idx[j]];
      assert qs[..n][fidx[j]] == qs[idx[j]];
    }
  }

  /** getSelectedProducts on a well-formed adapter: empty exactly when no row has a positive quantity. */
  function SelectedProducts(a: Adapter): (r: seq<Product>)
    requires WellFormed(a)
    ensures r == [] <==> forall i :: 0 <= i < |a.quantities| ==> a.quantities[i] <= 0
  {
    var r := Selection(a.products, a.quantities);
    SelectionProjects(a.products, a.quantities);
    if r == [] then
      NoneSelectedMeansNonePositive(a.quantities);
      r
    else
      assert PositiveRows(a.quantities)[0] < |a.quantities|;
      r
  }

  /** With no row listed, no row has a positive quantity. */
  lemma NoneSelectedMeansNonePositive(qs: seq<int>)
    requires PositiveRows(qs) == []
    ensures forall i :: 0 <= i < |qs| ==> qs[i] <= 0
  {
  }

  /** Without a positive quantity no row is listed. */
  lemma {:induction false} NoPositiveRows(qs: seq<int>)
    requires forall i :: 0 <= i < |qs| ==> qs[i] <= 0
    ensures PositiveRows(qs) == []
    decreases |qs|
  {
    if qs != [] {
      NoPositiveRows(qs[..|qs| - 1]);
    }
  }

  /** Nothing is selected in a fresh adapter. */
  lemma NothingSelectedInitially(products: seq<Product>)
    ensures SelectedProducts(NewAdapter(products)) == []
  {
    NoPositiveRows(NewAdapter(products).quantities);
    SelectionProjects(products, NewAdapter(products).quantities);
  }

  /** After edits from a fresh adapter, each chosen quantity lies between 1 and its row's stock. */
  lemma SelectedWithinStock(a: Adapter)
    requires WellFormed(a) && WithinStock(a)
    ensures var idx := PositiveRows(a.quantities); var r := SelectedProducts(a);
      |r| == |idx| && forall j :: 0 <= j < |r| ==> 1 <= r[j].quantity <= a.products[idx[j]].quantity
  {
    SelectionProjects(a.products, a.quantities);
  }

  /** The error getSelectedProducts or onBindViewHolder raises on a short quantity list. */
  datatype AccessError = IndexOutOfBounds(index: int)

  /**
   * getSelectedProducts as written: the loop runs over the catalogue and calls
   * quantities.get(i), which throws once `i` passes the end of the quantity
   * list; rows past the catalogue's end are ignored.
   */
  method GetSelectedChecked(a: Adapter) returns (r: Result<seq<Product>, AccessError>)
    ensures |a.quantities| < |a.products| ==> r == Failure(IndexOutOfBounds(|a.quantities|))
    ensures |a.quantities| >= |a.products| ==> r == Success(Selection(a.products, a.quantities[..|a.products|]))
  {
    var selected: seq<Product> := [];
    var i := 0;
    while i < |a.products|
      invariant 0 <= i <= |a.products|
      invariant i <= |a.quantities|
      invariant selected == Selection(a.products[..i], a.quantities[..i])
    {
      if i >= |a.quantities| {
        return Failure(IndexOutOfBounds(i));
      }
      var quantity := a.quantities[i];
      SelectionExtend(a.products, a.quantities, i);
      if quantity > 0 {
        selected := selected + [WithQuantity(a.products[i], quantity)];
      }
      i := i + 1;
    }
    assert a.products[..i] == a.products;
    return Success(selected);
  }

  /** Growing both prefixes by one row adds that row's product exactly when its quantity is positive. */
  lemma SelectionExtend(ps: seq<Product>, qs: seq<int>, i: nat)
    requires i < |ps| && i < |qs|
    ensures Selection(ps[..i + 1], qs[..i + 1]) ==
      Selection(ps[..i], qs[..i]) + (if qs[i] > 0 then [WithQuantity(ps[i], qs[i])] else [])
  {
    assert ps[..i + 1][..i] == ps[..i];
    assert qs[..i + 1][..i] == qs[..i];
  }

  /** onBindViewHolder as written: reads both lists at the row's position. */
  function BindChecked(a: Adapter, position: nat): (r: Result<(Product, int), AccessError>)
    requires position < |a.products|
    ensures r.Success? <==> position < |a.quantities|
    ensures r.Success? ==> r.value == (a.products[position], a.quantities[position])
  {
    if position < |a.quantities| then Success((a.products[position], a.quantities[position]))
    else Failure(IndexOutOfBounds(position))
  }

  // ---------------------------------------------------------------------------
  // ProductViewHolder.bind on a recycled holder
  // ---------------------------------------------------------------------------

  /** A row view that RecyclerView reuses: the row its current quantity watcher was made for, if any. */
  datatype Holder = Holder(watcher: Option<nat>)

  predicate HolderFits(a: Adapter, h: Holder) {
    h.watcher.Some? ==> h.watcher.value < |a.products|
  }

  /**
   * setText on the holder's quantity field: the attached watcher, if any, runs
   * afterTextChanged for the row it was made for. Its own write-back re-enters
   * it before its store, so the store of the outer call is what remains
   * (PurchaseScreen.EditQuantity spells that order out).
   */
  function SetFieldText(a: Adapter, h: Holder, text: string): (r: Adapter)
    requires WellFormed(a) && HolderFits(a, h)
    ensures WellFormed(r) && r.products == a.products
    ensures h.watcher.None? ==> r == a
    ensures h.watcher.Some? ==> r == AfterTextChanged(a, h.watcher.value, text).adapter
  {
    match h.watcher
    case None => a
    case Some(p) => AfterTextChanged(a, p, text).adapter
  }

  /**
   * bind as written: the field is set to the row's quantity while the watcher
   * of the holder's previous row is still attached, and only then is that
   * watcher replaced by one for the new row.
   */
  function BindAsWritten(a: Adapter, h: Holder, position: nat): (r: (Adapter, Holder))
    requires WellFormed(a) && HolderFits(a, h) && position < |a.products|
    ensures WellFormed(r.0) && r.0.products == a.products && r.1.watcher == Some(position)
    ensures h.watcher.None? ==> r.0 == a
    ensures h.watcher.Some? ==>
      r.0 == AfterTextChanged(a, h.watcher.value, ShowInt(a.quantities[position])).adapter
  {
    (SetFieldText(a, h, ShowInt(a.quantities[position])), Holder(Some(position)))
  }

  /**
   * Rebinding a holder from row p to another row q stores q's quantity,
   * capped at p's stock, in row p; no other row changes. Scrolling alone thus
   * edits a row the user never touched.
   */
  lemma RebindAsWrittenOverwritesRow(a: Adapter, p: nat, q: nat)
    requires WellFormed(a) && p < |a.products| && q < |a.products| && p != q
    requires 0 <= a.products[p].quantity <= INT_MAX && InIntRange(a.quantities[q])
    ensures var r := BindAsWritten(a, Holder(Some(p)), q).0;
      && r.quantities[p] == (if a.quantities[q] > a.products[p].quantity then a.products[p].quantity else a.quantities[q])
      && forall i :: 0 <= i < |a.quantities| && i != p ==> r.quantities[i] == a.quantities[i]
  {
    ParseShowInt(a.quantities[q]);
  }

  /**
   * bind with the old watcher removed before the field is set: binding
   * changes no quantity, and afterwards typing into the holder edits exactly
   * the row it now shows.
   */
  function Bind(a: Adapter, h: Holder, position: nat): (r: (Adapter, Holder))
    requires WellFormed(a) && HolderFits(a, h) && position < |a.products|
    ensures WellFormed(r.0) && r.0.products == a.products && HolderFits(r.0, r.1)
    ensures r.0.quantities == a.quantities && SelectedProducts(r.0) == SelectedProducts(a)
    ensures forall text :: SetFieldText(r.0, r.1, text) == AfterTextChanged(a, position, text).adapter
  {
    (SetFieldText(a, Holder(None), ShowInt(a.quantities[position])), Holder(Some(position)))
  }

  /**
   * PurchaseActivity as written: the adapter shares the activity's product
   * list, which is cleared and refilled when the catalogue arrives, while the
   * quantity list keeps the length it had at construction.
   */
  function RefillAsWritten(a: Adapter, catalogue: seq<Product>): (r: Adapter)
    ensures r.products == catalogue && r.quantities == a.quantities
  {
    a.(products := catalogue)
  }

  /** The adapter is built over the still-empty list, so any non-empty catalogue breaks it. */
  lemma RefillAsWrittenBreaksAdapter(catalogue: seq<Product>)
    requires catalogue != []
    ensures var a := RefillAsWritten(NewAdapter([]), catalogue);
      !WellFormed(a) && BindChecked(a, 0) == Failure(IndexOutOfBounds(0))
  {
  }

  /** Refilling that keeps the two lists parallel: a fresh row of zeros for the new catalogue. */
  function Refill(a: Adapter, catalogue: seq<Product>): (r: Adapter)
    ensures WellFormed(r) && r.products == catalogue
    ensures forall i :: 0 <= i < |r.quantities| ==> r.quantities[i] == 0
  {
    NewAdapter(catalogue)
  }

  /** After a corrected refill every row binds and the selection is well defined (and empty). */
  lemma RefillKeepsAdapterUsable(a: Adapter, catalogue: seq<Product>)
    ensures var r := Refill(a, catalogue);
      && (forall i :: 0 <= i < |catalogue| ==> BindChecked(r, i) == Success((catalogue[i], 0)))
      && SelectedProducts(r) == []
  {
    NothingSelectedInitially(catalogue);
  }

  /** On a well-formed adapter the checked loop never fails and returns the selection. */
  method SelectedOfWellFormed(a: Adapter) returns (r: seq<Product>)
    requires WellFormed(a)
    ensures r == SelectedProducts(a)
  {
    var checked := GetSelectedChecked(a);
    assert a.quantities[..|a.products|] == a.quantities;
    r := checked.value;
  }
}

=== FILE: session.dfy ===
/**
 * One use of a SocketClient as every screen drives it: connect() outside a
 * try, then the operation's writes and single read inside it, and
 * disconnect() in the finally block.
 */
module Session {
  import opened Wrappers
  import opened Protocol

  /** The three closeable fields of a SocketClient. */
  datatype Channel = InputChannel | OutputChannel | SocketChannel

  /** The observable steps of one exchange, in the order they happen. */
  datatype Event =
    | Opened(channel: Channel)
    | Wrote(frame: Frame)
    | ReadReply
    | Closed(channel: Channel)
    | CloseFailed(channel: Channel)

  /** Why an operation raised instead of returning. */
  datatype NetError =
    | ConnectError    // socket refused, or a stream header could not be exchanged
    | WriteError      // writeObject or flush failed
    | ReadError       // readObject failed or the stream ended before a reply
    | ReplyTypeError  // the reply is not of the class the operation casts it to

  /**
   * What the network and the Master do during one exchange: which connect step
   * fails (if any), which frame's write fails (if any), the reply object (None
   * when the read fails) and which close throws (if any).
   */
  datatype Peer = Peer(
    openFails: Option<Channel>,
    writeFailsAt: Option<nat>,
    reply: Option<WireObject>,
    closeFails: Option<Channel>)

  /** The events of an exchange, its outcome, and the channels left open afterwards. */
  datatype Run = Run(events: seq<Event>, outcome: Result<WireObject, NetError>, stillOpen: Handles)

  /** disconnect() closes the input stream, then the output stream, then the socket. */
  function CloseRank(ch: Channel): nat {
    match ch
    case InputChannel => 0
    case OutputChannel => 1
    case SocketChannel => 2
  }

  /** Which of the three fields are set and not yet closed. */
  datatype Handles = Handles(input: bool, output: bool, socket: bool)

  const ALL_OPEN: Handles := Handles(true, true, true)
  const NONE_OPEN: Handles := Handles(false, false, false)

  predicate IsOpen(h: Handles, ch: Channel) {
    match ch
    case InputChannel => h.input
    case OutputChannel => h.output
    case SocketChannel => h.socket
  }

  function Without(h: Handles, ch: Channel): Handles {
    match ch
    case InputChannel => h.(input := false)
    case OutputChannel => h.(output := false)
    case SocketChannel => h.(socket := false)
  }

  /** The open channels of `h` in close order. */
  function InCloseOrder(h: Handles): seq<Channel> {
    (if h.input then [InputChannel] else [])
    + (if h.output then [OutputChannel] else [])
    + (if h.socket then [SocketChannel] else [])
  }

  /** The channels of `h` that disconnect() tries before `ch`. */
  function ClosedBefore(h: Handles, ch: Channel): Handles {
    Handles(h.input && CloseRank(ch) > 0, h.output && CloseRank(ch) > 1, false)
  }

  /** The channels of `h` that disconnect() has not reached when `ch` fails to close. */
  function LeftFrom(h: Handles, ch: Channel): Handles {
    Handles(h.input && CloseRank(ch) == 0, h.output && CloseRank(ch) <= 1, h.socket)
  }

  /** The close plan lists exactly the open channels, each once, in close order. */
  lemma CloseOrderPlan(h: Handles)
    ensures forall i :: 0 <= i < |InCloseOrder(h)| ==> IsOpen(h, InCloseOrder(h)[i])
    ensures forall i, j :: 0 <= i < j < |InCloseOrder(h)| ==> CloseRank(InCloseOrder(h)[i]) < CloseRank(InCloseOrder(h)[j])
    ensures forall ch :: IsOpen(h, ch) ==> ch in InCloseOrder(h)
  {
    var p := InCloseOrder(h);
    forall ch | IsOpen(h, ch)
      ensures ch in p
    {
      match ch
      case InputChannel => assert p[0] == ch;
      case OutputChannel => assert p[if h.input then 1 else 0] == ch;
      case SocketChannel => assert p[|p| - 1] == ch;
    }
  }

  /** A failing close splits the open channels by close order. */
  lemma FailureSplitsChannels(h: Handles, ch: Channel)
    ensures forall c :: IsOpen(ClosedBefore(h, ch), c) <==> IsOpen(h, c) && CloseRank(c) < CloseRank(ch)
    ensures forall c :: IsOpen(LeftFrom(h, ch), c) <==> IsOpen(h, c) && CloseRank(c) >= CloseRank(ch)
  {
  }

  function CloseEvents(chs: seq<Channel>): (ev: seq<Event>)
    ensures |ev| == |chs|
    ensures forall i :: 0 <= i < |ev| ==> ev[i] == Closed(chs[i])
  {
    if chs == [] then [] else [Closed(chs[0])] + CloseEvents(chs[1..])
  }

  // ---------------------------------------------------------------------------
  // connect(): new Socket, then new ObjectOutputStream, then new ObjectInputStream.
  // ---------------------------------------------------------------------------

  /**
   * The fields connect() has set when it returns or throws: the steps run in
   * the order socket, output stream, input stream, and every step before a
   * failing one has set its field.
   */
  function Connect(openFails: Option<Channel>): (h: Handles)
    ensures openFails.None? ==> h == ALL_OPEN
    ensures openFails.Some? ==> !IsOpen(h, openFails.value) && !h.input
    ensures openFails == Some(SocketChannel) ==> h == NONE_OPEN
    ensures openFails == Some(OutputChannel) ==> h.socket && !h.output
    ensures openFails == Some(InputChannel) ==> h.socket && h.output
  {
    match openFails
    case None => ALL_OPEN
    case Some(SocketChannel) => NONE_OPEN
    case Some(OutputChannel) => Handles(false, false, true)
    case Some(InputChannel) => Handles(false, true, true)
  }

  /** The open events of connect(), in the order socket, output, input. */
  function OpenEvents(h: Handles): (ev: seq<Event>)
    ensures forall i :: 0 <= i < |ev| ==> ev[i].Opened?
  {
    (if h.socket then [Opened(SocketChannel)] else [])
    + (if h.output then [Opened(OutputChannel)] else [])
    + (if h.input then [Opened(InputChannel)] else [])
  }

  // ---------------------------------------------------------------------------
  // disconnect()
  // ---------------------------------------------------------------------------

  /** Progress of disconnect(): events so far, channels still open, and whether a close threw. */
  datatype Teardown = Teardown(events: seq<Event>, stillOpen: Handles, aborted: bool)

  /** `if (ch != null) ch.close();` inside the try: skipped once an earlier close threw. */
  function CloseStep(t: Teardown, ch: Channel, fails: Option<Channel>): Teardown {
    if t.aborted || !IsOpen(t.stillOpen, ch) then t
    else if fails == Some(ch) then Teardown(t.events + [CloseFailed(ch)], t.stillOpen, true)
    else Teardown(t.events + [Closed(ch)], Without(t.stillOpen, ch), false)
  }

  /**
   * disconnect(): never throws. Without a failing close it closes exactly the
   * open channels, in the order input, output, socket, and leaves nothing
   * open. When closing an open channel throws, the exception is swallowed:
   * the channels before it are closed, it and the ones after it stay open.
   */
  function Disconnect(open: Handles, fails: Option<Channel>): (d: Teardown)
    ensures (fails.None? || !IsOpen(open, fails.value)) ==>
      d.events == CloseEvents(InCloseOrder(open)) && d.stillOpen == NONE_OPEN
    ensures fails.Some? && IsOpen(open, fails.value) ==>
      && d.events == CloseEvents(InCloseOrder(ClosedBefore(open, fails.value))) + [CloseFailed(fails.value)]
      && d.stillOpen == LeftFrom(open, fails.value)
  {
    DisconnectCases(open, fails);
    CloseAll(open, fails)
  }

  /** The three guarded closes of disconnect(), in source order. */
  function CloseAll(open: Handles, fails: Option<Channel>): Teardown {
    var t0 := Teardown([], open, false);
    var t1 := CloseStep(t0, InputChannel, fails);
    var t2 := CloseStep(t1, OutputChannel, fails);
    CloseStep(t2, SocketChannel, fails)
  }

  lemma DisconnectCases(open: Handles, fails: Option<Channel>)
    ensures var d := CloseAll(open, fails);
      && ((fails.None? || !IsOpen(open, fails.value)) ==>
            d.events == CloseEvents(InCloseOrder(open)) && d.stillOpen == NONE_OPEN)
      && (fails.Some? && IsOpen(open, fails.value) ==>
            && d.events == CloseEvents(InCloseOrder(ClosedBefore(open, fails.value))) + [CloseFailed(fails.value)]
            && d.stillOpen == LeftFrom(open, fails.value))
  {
    if fails.None? || !IsOpen(open, fails.value) {
      CloseAllClean(open, fails);
    } else {
      CloseAllFailing(open, fails.value);
    }
  }

  /** Each set channel is closed in turn when no close throws. */
  lemma CloseAllClean(open: Handles, fails: Option<Channel>)
    requires fails.None? || !IsOpen(open, fails.value)
    ensures CloseAll(open, fails) == Teardown(CloseEvents(InCloseOrder(open)), NONE_OPEN, false)
  {
    var chs := InCloseOrder(open);
    var ev := CloseEvents(chs);
    assert |ev| == |chs|;
    assert CloseAll(open, fails).events == ev;
  }

  /** The closes before the throwing one happen; it and the later ones are skipped. */
  lemma CloseAllFailing(open: Handles, ch: Channel)
    requires IsOpen(open, ch)
    ensures var d := CloseAll(open, Some(ch));
      && d.events == CloseEvents(InCloseOrder(ClosedBefore(open, ch))) + [CloseFailed(ch)]
      && d.stillOpen == LeftFrom(open, ch)
  {
    var chs := InCloseOrder(ClosedBefore(open, ch));
    var ev := CloseEvents(chs) + [CloseFailed(ch)];
    assert |ev| == |chs| + 1;
    assert CloseAll(open, Some(ch)).events == ev;
  }

  // ---------------------------------------------------------------------------
  // The operation body between connect() and disconnect().
  // ---------------------------------------------------------------------------

  function WroteEvents(fs: seq<Frame>): (ev: seq<Event>)
    ensures |ev| == |fs|
    ensures forall i :: 0 <= i < |ev| ==> ev[i] == Wrote(fs[i])
  {
    if fs == [] then [] else [Wrote(fs[0])] + WroteEvents(fs[1..])
  }

  /** The frames that reach the wire before a failing write, if any. */
  function Written(fs: seq<Frame>, writeFailsAt: Option<nat>): seq<Frame> {
    if writeFailsAt.Some? && writeFailsAt.value < |fs| then fs[..writeFailsAt.value] else fs
  }

  /** The events and the outcome of the operation body. */
  datatype Exchanged = Exchanged(events: seq<Event>, outcome: Result<WireObject, NetError>)

  /** Every frame of the operation reached the wire. */
  predicate AllWritten(op: Operation, peer: Peer) {
    Written(Frames(op), peer.writeFailsAt) == Frames(op)
  }

  /** The peer answers with an object the operation can cast to its reply class. */
  predicate ReplyFits(op: Operation, peer: Peer) {
    peer.reply.Some? && CastSucceeds(ExpectedReply(op), peer.reply.value)
  }

  /**
   * Writes, then (only if every write succeeded) exactly one read, cast to the
   * expected class. A failing write raises before the read; a failing read and
   * a reply of the wrong class raise after it; otherwise the reply object,
   * null included, is returned as read.
   */
  function Exchange(op: Operation, peer: Peer): (x: Exchanged)
    ensures x.outcome == Failure(WriteError) <==> !AllWritten(op, peer)
    ensures x.outcome == Failure(ReadError) <==> AllWritten(op, peer) && peer.reply.None?
    ensures x.outcome == Failure(ReplyTypeError) <==> AllWritten(op, peer) && peer.reply.Some? && !ReplyFits(op, peer)
    ensures x.outcome.Success? <==> AllWritten(op, peer) && ReplyFits(op, peer)
    ensures x.outcome.Success? ==> x.outcome.value == peer.reply.value
  {
    var fs := Frames(op);
    var written := Written(fs, peer.writeFailsAt);
    if written != fs then Exchanged(WroteEvents(written), Failure(WriteError))
    else
      var events := WroteEvents(fs) + [ReadReply];
      match peer.reply
      case None => Exchanged(events, Failure(ReadError))
      case Some(obj) =>
        if CastSucceeds(ExpectedReply(op), obj) then Exchanged(events, Success(obj))
        else Exchanged(events, Failure(ReplyTypeError))
  }

  /**
   * The code every screen runs on its worker thread: connect() outside the
   * try, so a failing connect is never followed by disconnect() and leaves
   * open whatever it had set. After a successful connect the task succeeds
   * exactly when every frame was written and a reply of the right class came
   * back, and the finally block closes everything unless a close throws.
   */
  function RunTask(op: Operation, peer: Peer): (r: Run)
    ensures peer.openFails.Some? ==> r.outcome == Failure(ConnectError) && r.stillOpen == Connect(peer.openFails)
    ensures r.outcome.Success? <==> peer.openFails.None? && AllWritten(op, peer) && ReplyFits(op, peer)
    ensures r.outcome.Success? ==> r.outcome.value == peer.reply.value
    ensures peer.openFails.None? && r.outcome.Failure? ==> r.outcome.error != ConnectError
    ensures peer.openFails.None? && peer.closeFails.None? ==> r.stillOpen == NONE_OPEN
  {
    var chans := Connect(peer.openFails);
    if peer.openFails.Some? then
      Run(OpenEvents(chans), Failure(ConnectError), chans)
    else
      var x := Exchange(op, peer);
      var d := Disconnect(ALL_OPEN, peer.closeFails);
      Run(OpenEvents(chans) + x.events + d.events, x.outcome, d.stillOpen)
  }

  /** Teardown that also covers a failing connect: whatever was opened is closed again. */
  function RunTaskGuarded(op: Operation, peer: Peer): Run {
    var chans := Connect(peer.openFails);
    if peer.openFails.Some? then
      var d := Disconnect(chans, peer.closeFails);
      Run(OpenEvents(chans) + d.events, Failure(ConnectError), d.stillOpen)
    else RunTask(op, peer)
  }

  // ---------------------------------------------------------------------------
  // Observations on an event trace.
  // ---------------------------------------------------------------------------

  /** The frames written, in order. */
  function WritesOf(ev: seq<Event>): seq<Frame> {
    if ev == [] then []
    else (if ev[0].Wrote? then [ev[0].frame] else []) + WritesOf(ev[1..])
  }

  /** How many reads happened. */
  function ReadsOf(ev: seq<Event>): nat {
    if ev == [] then 0 else (if ev[0].ReadReply? then 1 else 0) + ReadsOf(ev[1..])
  }

  /** Every read comes after every write. */
  predicate ReadsAfterWrites(ev: seq<Event>) {
    forall i, j :: 0 <= i < |ev| && 0 <= j < |ev| && ev[i].Wrote? && ev[j].ReadReply? ==> i < j
  }

  /** Whether a close was attempted. */
  predicate TouchesClose(ev: seq<Event>) {
    exists i :: 0 <= i < |ev| && (ev[i].Closed? || ev[i].CloseFailed?)
  }

  lemma {:induction false} ObservationsAppend(a: seq<Event>, b: seq<Event>)
    ensures WritesOf(a + b) == WritesOf(a) + WritesOf(b)
    ensures ReadsOf(a + b) == ReadsOf(a) + ReadsOf(b)
    decreases |a|
  {
    if a == [] {
      assert a + b == b;
    } else {
      ObservationsAppend(a[1..], b);
      assert (a + b)[0] == a[0];
      assert (a + b)[1..] == a[1..] + b;
    }
  }

  lemma {:induction false} ObservationsOfClean(ev: seq<Event>)
    requires forall i :: 0 <= i < |ev| ==> !ev[i].Wrote? && !ev[i].ReadReply?
    ensures WritesOf(ev) == [] && ReadsOf(ev) == 0
    decreases |ev|
  {
    if ev != [] {
      ObservationsOfClean(ev[1..]);
    }
  }

  lemma {:induction false} ObservationsOfWrites(fs: seq<Frame>)
    ensures WritesOf(WroteEvents(fs)) == fs && ReadsOf(WroteEvents(fs)) == 0
    decreases |fs|
  {
    if fs != [] {
      ObservationsOfWrites(fs[1..]);
      assert WroteEvents(fs)[1..] == WroteEvents(fs[1..]);
    }
  }

  // ---------------------------------------------------------------------------
  // Properties of a run.
  // ---------------------------------------------------------------------------

  /** A failing connect raises before anything is written, read or closed. */
  lemma ConnectFailureSendsNothing(op: Operation, peer: Peer)
    requires peer.openFails.Some?
    ensures var r := RunTask(op, peer);
      && r.outcome == Failure(ConnectError)
      && WritesOf(r.events) == [] && ReadsOf(r.events) == 0
      && !TouchesClose(r.events)
  {
    var ev := OpenEvents(Connect(peer.openFails));
    ObservationsOfClean(ev);
  }

  /** The operation body: written frames, reads, and the reply passed through. */
  lemma ExchangeObservations(op: Operation, peer: Peer)
    ensures var x := Exchange(op, peer);
      var fs := Frames(op);
      && WritesOf(x.events) == Written(fs, peer.writeFailsAt)
      && ReadsOf(x.events) == (if Written(fs, peer.writeFailsAt) == fs then 1 else 0)
      && ReadsAfterWrites(x.events)
      && (x.outcome.Success? ==> Written(fs, peer.writeFailsAt) == fs && peer.reply == Some(x.outcome.value))
  {
    var fs := Frames(op);
    var written := Written(fs, peer.writeFailsAt);
    ObservationsOfWrites(written);
    var x := Exchange(op, peer);
    if written == fs {
      ObservationsAppend(WroteEvents(fs), [ReadReply]);
      assert ReadsOf([ReadReply]) == 1;
      assert WritesOf([ReadReply]) == [];
      ReadLast(fs);
      assert x.events == WroteEvents(fs) + [ReadReply];
    } else {
      assert x.events == WroteEvents(written);
    }
  }

  lemma ReadLast(fs: seq<Frame>)
    ensures ReadsAfterWrites(WroteEvents(fs) + [ReadReply])
  {
    var ev := WroteEvents(fs) + [ReadReply];
    forall i, j | 0 <= i < |ev| && 0 <= j < |ev| && ev[i].Wrote? && ev[j].ReadReply?
      ensures i < j
    {
      assert j == |fs|;
    }
  }

  /** Events that neither write nor read do not disturb the order of those that do. */
  lemma ReadsAfterWritesFramed(pre: seq<Event>, mid: seq<Event>, post: seq<Event>)
    requires forall i :: 0 <= i < |pre| ==> !pre[i].Wrote? && !pre[i].ReadReply?
    requires forall i :: 0 <= i < |post| ==> !post[i].Wrote? && !post[i].ReadReply?
    requires ReadsAfterWrites(mid)
    ensures ReadsAfterWrites(pre + mid + post)
    ensures WritesOf(pre + mid + post) == WritesOf(mid)
    ensures ReadsOf(pre + mid + post) == ReadsOf(mid)
  {
    var ev := pre + mid + post;
    forall i, j | 0 <= i < |ev| && 0 <= j < |ev| && ev[i].Wrote? && ev[j].ReadReply?
      ensures i < j
    {
      assert |pre| <= i < |pre| + |mid| && ev[i] == mid[i - |pre|];
      assert |pre| <= j < |pre| + |mid| && ev[j] == mid[j - |pre|];
    }
    ObservationsOfClean(pre);
    ObservationsOfClean(post);
    ObservationsAppend(pre, mid);
    ObservationsAppend(pre + mid, post);
  }

  /**
   * After a successful connect the frames written are a prefix of the
   * operation's frames; the one read happens exactly when all of them were
   * written, and it comes after them; the reply is returned unchanged.
   */
  lemma ConnectedRun(op: Operation, peer: Peer)
    requires peer.openFails.None?
    ensures var r := RunTask(op, peer);
      var fs := Frames(op);
      && WritesOf(r.events) == Written(fs, peer.writeFailsAt)
      && (WritesOf(r.events) == fs <==> ReadsOf(r.events) == 1)
      && ReadsOf(r.events) <= 1
      && ReadsAfterWrites(r.events)
      && (r.outcome.Success? ==> WritesOf(r.events) == fs && peer.reply == Some(r.outcome.value))
      && (WritesOf(r.events) == fs && peer.reply.Some? && CastSucceeds(ExpectedReply(op), peer.reply.value) ==>
            r.outcome == Success(peer.reply.value))
  {
    var oe := OpenEvents(Connect(peer.openFails));
    var x := Exchange(op, peer);
    var d := Disconnect(ALL_OPEN, peer.closeFails);
    ExchangeObservations(op, peer);
    ReadsAfterWritesFramed(oe, x.events, d.events);
    assert RunTask(op, peer).events == oe + x.events + d.events;
  }

  /** A failing close never changes what the operation returns or raises. */
  lemma TeardownNeverMasksOutcome(op: Operation, peer: Peer, fails: Option<Channel>)
    ensures RunTask(op, peer).outcome == RunTask(op, peer.(closeFails := fails)).outcome
  {
  }

  /** When connect succeeds and no close throws, nothing is left open. */
  lemma ConnectedRunClosesAll(op: Operation, peer: Peer)
    requires peer.openFails.None? && peer.closeFails.None?
    ensures RunTask(op, peer).stillOpen == NONE_OPEN
  {
  }

  /** As written, a connect that fails while creating the object streams leaves the socket open. */
  lemma ConnectFailureLeaksSocket(op: Operation, peer: Peer)
    requires peer.openFails == Some(InputChannel) || peer.openFails == Some(OutputChannel)
    ensures RunTask(op, peer).stillOpen.socket
  {
  }

  /** With guarded teardown, every run leaves nothing open unless a close throws. */
  lemma GuardedRunClosesAll(op: Operation, peer: Peer)
    requires peer.closeFails.None?
    ensures RunTaskGuarded(op, peer).stillOpen == NONE_OPEN
    ensures RunTaskGuarded(op, peer).outcome == RunTask(op, peer).outcome
  {
  }
}

=== FILE: uiutils.dfy ===
/** UiUtils.truncateText. */
module UiUtils {

  const ELLIPSIS: string := "..."

  /**
   * Text that fits is returned as it is; longer text keeps its first
   * maxLength - 3 chars followed by "...". For longer text with maxLength < 3
   * the substring end is negative and Java throws, so callers must not ask.
   */
  function Truncate(text: string, maxLength: int): (r: string)
    requires |text| <= maxLength || maxLength >= 3
    ensures |text| <= maxLength ==> r == text
    ensures |text| > maxLength ==>
      && |r| == maxLength
      && r[..maxLength - 3] == text[..maxLength - 3]
      && r[maxLength - 3..] == ELLIPSIS
    ensures |r| <= |text|
  {
    if |text| <= maxLength then text else text[..maxLength - 3] + ELLIPSIS
  }

  /** Truncating an already truncated text changes nothing. */
  lemma TruncateIdempotent(text: string, maxLength: int)
    requires maxLength >= 3
    ensures Truncate(Truncate(text, maxLength), maxLength) == Truncate(text, maxLength)
  {
  }
}

=== FILE: wrappers.dfy ===
/** Failure-carrying result types shared by the whole model. */
module Wrappers {

  /** A value that may be absent; stands for a Java reference that may be null. */
  datatype Option<+T> = None | Some(value: T)

  /** Either a value or the error that an operation raised instead. */
  datatype Result<+T, +E> = Success(value: T) | Failure(error: E)
}
